=== FILE: README.md ===
# Personal-finance engine: a Dafny model

This project models the calculation core of a personal-finance web application in Dafny and proves
properties of that model:

- **Debt-service-ratio (DSR) detector** (`dsr_detector.dfy`, module `DsrDetector`):
  - It computes DSR and DTI (debt-to-income), the four-level risk band and the 0–100 risk score.
  - It emits the alert list and the recommendation list.
  - It projects the debt payoff, month by month, with a 600-month cap and a "payment does not cover interest" exit.
  - Its what-if simulation covers a raised income, redirected expense cuts, a refinance and extra payments.
- **Financial health score** (`health_score.dfy`, module `FinancialHealth`):
  - There are six sub-scores, each out of 100.
  - The weighted total is rounded to one decimal, then turned into a letter grade.
  - Insights and recommendations are rule-based.
- **Monte Carlo net-worth simulation** (`monte_carlo.dfy`, module `MonteCarlo`):
  - Each run follows a yearly recurrence with normally distributed rates and life events; net worth is clamped at 0.
  - Percentile bands are nearest-rank values over sorted per-year columns.
  - It reports final-year statistics, the best/worst-case scenario configurations and the goal probability.
- **Spending-map statistics** (`spending_map.dfy`, module `SpendingMap`):
  - Located transactions are grouped by district and by place category.
  - Each group gets an absolute-amount total and a count.
  - The five largest groups are reported, largest first.

Two small support modules:

- `js_math.dfy` (`JsMath`) holds the pieces of JavaScript number semantics the engine depends on:
  - division by zero giving an infinity or NaN;
  - `Math.round`;
  - comparisons involving NaN and the infinities.
- `sorting.dfy` (`Sorting`) holds the ascending numeric sort, `sort((a, b) => a - b)`.

How the source code maps to the model:

- Money and rates are `real`.
- Messages become tagged values that carry the figures the message text quotes.
- Where the source loops and mutates variables, the model uses a `method` with a loop, proved equal to a recursive specification function:
  - the amortisation loop;
  - the per-year simulation loop;
  - the simulation and percentile loops;
  - the `reduce` that groups locations.
- The properties are stated about that specification function.
- Randomness is an input. Each run gets a sequence of standard normal deviates, one set of four per simulated year, so a run is a deterministic function of its configuration and its deviates.

## Model

| member | source | states |
|---|---|---|
| JsMath.Div | src/lib/financial-health/score.ts:326 | JavaScript division: finite exactly when the divisor is non-zero (then quotient × divisor = dividend), +Infinity exactly for a positive dividend over 0, NaN exactly for 0/0 |
| JsMath.Round | src/lib/risk/dsr-detector.ts:135 | `Math.round` returns the integer within half a unit of its argument, halves going up |
| JsMath.RoundToTenth | src/lib/financial-health/score.ts:91 | `Math.round(x * 10) / 10` is a whole number of tenths within 0.05 of `x` |
| Sorting.SortAsc | src/lib/simulation/monte-carlo.ts:143 | the numeric sort returns an ascending permutation (same multiset, same length) of its input |
| DsrDetector.MaxRate | src/lib/risk/dsr-detector.ts:240-245 | the highest rate among the loans is one of their rates and bounds them all |
| DsrDetector.MinBalance | src/lib/risk/dsr-detector.ts:253 | the smallest balance is one of the balances and is below all of them |
| DsrDetector.HighInterestLoans | src/lib/risk/dsr-detector.ts:184 | the high-interest filter keeps at most all the loans (membership: HighInterestMember) |
| DsrDetector.SmallLoans | src/lib/risk/dsr-detector.ts:253 | the small-loan filter keeps at most all the loans (membership: SmallLoanMember) |
| DsrDetector.HighInterestMember | src/lib/risk/dsr-detector.ts:184 | a loan is in the high-interest list exactly when it is a loan at a rate of 15% or more |
| DsrDetector.SmallLoanMember | src/lib/risk/dsr-detector.ts:253 | a loan is in the small-loan list exactly when its balance is under 5,000,000 |
| DsrDetector.Dsr | src/lib/risk/dsr-detector.ts:58-60 | DSR × income = (debt payment + other obligations) × 100 for a positive income; 0 otherwise |
| DsrDetector.Dti | src/lib/risk/dsr-detector.ts:63-65 | DTI × income = debt payment × 100 for a positive income; 0 otherwise |
| DsrDetector.DsrIsDtiPlusObligations | src/lib/risk/dsr-detector.ts:58-65 | DSR is the DTI of the debt payment plus the DTI of the other obligations, for every income |
| DsrDetector.RatiosGrowWithPayment | src/lib/risk/dsr-detector.ts:58-65 | a larger debt payment never lowers DSR or DTI |
| DsrDetector.DetermineRiskLevel | src/lib/risk/dsr-detector.ts:96-107 | the level is Danger iff DSR ≥ 60 or DTI ≥ 50, Warning iff not Danger and DSR ≥ 50 or DTI ≥ 40, Caution iff below those and DSR ≥ 40 or DTI ≥ 30, Safe iff DSR < 40 and DTI < 30 |
| DsrDetector.RiskLevelMonotone | src/lib/risk/dsr-detector.ts:96-107 | higher DSR and DTI never give a lower risk level |
| DsrDetector.DsrPoints | src/lib/risk/dsr-detector.ts:116-121 | the DSR part of the risk score is at most 50, and not negative for a non-negative DSR |
| DsrDetector.DtiPoints | src/lib/risk/dsr-detector.ts:124-127 | the DTI part is at most 30, and not negative for a non-negative DTI |
| DsrDetector.HighInterestPoints | src/lib/risk/dsr-detector.ts:130-133 | 5 points per high-interest loan, at most 20 |
| DsrDetector.RiskScore | src/lib/risk/dsr-detector.ts:112-136 | the rounded, capped score is at most 100, and not negative for non-negative ratios |
| DsrDetector.RiskScoreMonotone | src/lib/risk/dsr-detector.ts:112-136 | higher DSR and DTI never lower the risk score |
| DsrDetector.RiskScoreMonotoneInPayment | src/lib/risk/dsr-detector.ts:58-136 | a larger debt payment never lowers the risk score |
| DsrDetector.MakeAlert | src/lib/risk/dsr-detector.ts:150-213 | each alert carries the kind of the rule that produced it; it is critical iff the rule is DSR ≥ 60 or DTI ≥ 40, informational iff it is the healthy notice (a warning otherwise), and requires action iff the rule is DSR ≥ 60, DSR 50–60, DTI ≥ 40 or high-interest debt |
| DsrDetector.AlertKinds | src/lib/risk/dsr-detector.ts:141-216 | each rule's alert is present iff its condition holds (DSR ≥ 60 / 50–60 / 40–50, DTI ≥ 40, a high-interest loan, 5 or more loans); the healthy alert appears iff no rule fires, and then alone |
| DsrDetector.CriticalAlertIffDanger | src/lib/risk/dsr-detector.ts:150-182 | the alert list holds a critical alert iff DSR ≥ 60 or DTI ≥ 40 |
| DsrDetector.ActionAlertIff | src/lib/risk/dsr-detector.ts:150-193 | some alert requires action iff DSR ≥ 50, DTI ≥ 40 or a loan is at 15% or more |
| DsrDetector.InfoAlertIffHealthy | src/lib/risk/dsr-detector.ts:205-213 | the list holds an informational alert iff no rule fires |
| DsrDetector.AlertsInRuleOrder | src/lib/risk/dsr-detector.ts:141-216 | alerts come in the order of the rules |
| DsrDetector.GenerateAlerts | src/lib/risk/dsr-detector.ts:141-216 | the alert list is non-empty, its kinds are exactly the fired rules in order, and each alert is the one its rule builds |
| DsrDetector.HighestHighRateCited | src/lib/risk/dsr-detector.ts:240-250 | the rate cited by the high-rate advice is absent iff no loan is at 15% or more, and otherwise is the highest such loan's rate |
| DsrDetector.SmallestSmallBalanceCited | src/lib/risk/dsr-detector.ts:253-258 | the balance cited by the small-loan advice is absent iff no loan is under 5,000,000, and otherwise is the smallest such balance |
| DsrDetector.Advice | src/lib/risk/dsr-detector.ts:221-283 | the list is never empty; the keep-course advice appears iff no rule fires, and then the list is the two default items |
| DsrDetector.AdviceParts | src/lib/risk/dsr-detector.ts:230-274 | every non-default advice item appears exactly when its rule's condition holds |
| DsrDetector.AdviceByBand | src/lib/risk/dsr-detector.ts:230-263 | the DSR-band advice follows the band (≥ 60, 50–60, 40–50) and consolidation appears iff there are 3 or more loans |
| DsrDetector.AdviceCitesFacts | src/lib/risk/dsr-detector.ts:240-274 | the refinance advice appears iff a high-rate loan exists; the cited rate, the balance and the reduction are exactly the figures the rules computed, and each appears when its rule fires |
| DsrDetector.GenerateRecommendations | src/lib/risk/dsr-detector.ts:221-283 | the recommendation list is never empty |
| DsrDetector.RecommendationsFollowRules | src/lib/risk/dsr-detector.ts:221-283 | in terms of the loans: each rule's advice appears iff its condition holds, and the default advice appears iff no rule does |
| DsrDetector.RecommendationsCiteLoans | src/lib/risk/dsr-detector.ts:240-274 | the cited rate is the highest rate of a loan at ≥ 15%, the cited balance is the smallest one under 5,000,000, and the budget cut is total payment − 30% of income, present exactly when DTI ≥ 30 and the cut is positive |
| DsrDetector.Amortize | src/lib/risk/dsr-detector.ts:307-341 | the month count never exceeds 600; a run that neither stalled nor reached the cap has paid the balance off |
| DsrDetector.MonthlyRate | src/lib/risk/dsr-detector.ts:301-305 | the monthly rate × 1200 × total balance is the balance-weighted sum of the annual rates; 0 when there is no balance |
| DsrDetector.ProjectionOf | src/lib/risk/dsr-detector.ts:288-350 | a finite payoff takes at most 600 months, savings are never negative and are 0 for an infinite payoff, and no balance means an immediate payoff with no interest |
| DsrDetector.PayOff | src/lib/risk/dsr-detector.ts:307-324 | the month-by-month loop computes the recursive amortisation |
| DsrDetector.CalculateDebtProjection | src/lib/risk/dsr-detector.ts:288-350 | the method (both loops, the stall exit and the savings) computes the specified projection |
| DsrDetector.PaymentAboveInterestNeverStalls | src/lib/risk/dsr-detector.ts:312-319 | if the payment exceeds the first month's interest at a non-negative rate, the loop never stalls |
| DsrDetector.InterestNeverDecreases | src/lib/risk/dsr-detector.ts:307-324 | accumulated interest never decreases at a non-negative rate |
| DsrDetector.SumOfNonNegative | src/lib/risk/dsr-detector.ts:296 | totals of non-negative loan fields are non-negative |
| DsrDetector.PayoffIsFiniteWhenPaymentCoversInterest | src/lib/risk/dsr-detector.ts:288-324 | for non-negative loans, a payment above the first month's interest gives a finite payoff within 600 months and with non-negative interest |
| DsrDetector.NonConvergentExample | src/lib/risk/dsr-detector.ts:312-319 | 10,000,000 at 20% repaid at 100,000 a month never converges and saves nothing |
| DsrDetector.CalculateDSR | src/lib/risk/dsr-detector.ts:54-91 | every field of the assessment is the specified one: ratios (0 without income), level, score ≤ 100, non-empty alerts and advice, projection with non-negative savings |
| DsrDetector.DangerExample | src/lib/risk/dsr-detector.ts:58-171 | paying 1,800,000 of a 3,000,000 income is a DSR of 60: Danger, 45 DSR points, 30 DTI points and a danger alert |
| DsrDetector.ThresholdEquivalent | src/lib/risk/dsr-detector.ts:400 | a non-finite DTI compares with the 30/40/50 thresholds as JavaScript compares it |
| DsrDetector.RefinanceFactor | src/lib/risk/dsr-detector.ts:386-388 | the payment factor is linear in the new rate: 1/2 at a rate of 0, 1 at the current average, and (factor − 1/2) × 2 × average = new rate |
| DsrDetector.ImprovedIncome | src/lib/risk/dsr-detector.ts:375-377 | a truthy income increase is added to the income; otherwise the income is unchanged |
| DsrDetector.ImprovedPayment | src/lib/risk/dsr-detector.ts:379-393 | without a refinance the payment grows by the truthy expense cut and extra payment; with one, the payment before the extra is (payment + cut) × the refinance factor, and refinancing at the current average rate changes nothing |
| DsrDetector.ImprovedRiskLevelAsWritten | src/lib/risk/dsr-detector.ts:400 | as written: for a non-zero income the level of payment/income × 100; at zero income Danger for any positive payment, and the DSR level alone otherwise (NaN or −Infinity fails every threshold) |
| DsrDetector.RefinanceFactorBounds | src/lib/risk/dsr-detector.ts:384-389 | refinancing to a rate between 0 and the average scales the payment by a factor in [0.5, 1], below 1 for a genuine cut |
| DsrDetector.ImprovedRiskLevel | src/lib/risk/dsr-detector.ts:400 | for a positive new income, the guarded level equals the level computed as written |
| DsrDetector.EmptyScenarioAsWrittenDisagrees | src/lib/risk/dsr-detector.ts:395-400 | as written, with no income and a debt payment of 1,000,000, an empty scenario reports the same DSR of 0 but Danger where the assessment says Safe |
| DsrDetector.EmptyScenarioKeepsAssessment | src/lib/risk/dsr-detector.ts:355-408 | with the guard, an empty scenario reproduces the current income, payment and risk level for every input |
| DsrDetector.IncomeIncreaseNeverRaisesDsr | src/lib/risk/dsr-detector.ts:375-377 | raising a positive income never raises DSR when obligations are non-negative |
| DsrDetector.SimulateDSRImprovement | src/lib/risk/dsr-detector.ts:355-408 | current and improved DSR and their difference are the specified functions of the adjusted income and payment; the new level is the guarded one, equal to the level as written whenever the new income is positive |
| FinancialHealth.LiquidityRatio | src/lib/financial-health/score.ts:131 | liquid over total assets when assets are positive, else 0 |
| FinancialHealth.AssetHealth | src/lib/financial-health/score.ts:109-144 | the asset score is a multiple of 5 in [0, 100]: at least 55 for a positive net worth, only the liquidity bonus (5–20) otherwise |
| FinancialHealth.AssetCapNeverBinds | src/lib/financial-health/score.ts:137 | the cap at 100 never applies: the score is the sum of its parts |
| FinancialHealth.AssetHealthMonotone | src/lib/financial-health/score.ts:109-144 | more net worth and liquidity never lower the asset score |
| FinancialHealth.DebtRatio | src/lib/financial-health/score.ts:168 | liabilities over assets when assets are positive, else 1 |
| FinancialHealth.DebtManagement | src/lib/financial-health/score.ts:149-181 | the debt score is a multiple of 20 in [20, 100]; 100 without liabilities |
| FinancialHealth.DebtRatioPointsMonotone | src/lib/financial-health/score.ts:170-174 | a higher debt ratio never raises the debt score |
| FinancialHealth.CashFlowHealth | src/lib/financial-health/score.ts:186-209 | 100 iff income exceeds expenses, 50 iff they are equal, 0 iff there is a deficit |
| FinancialHealth.SavingsRate | src/lib/financial-health/score.ts:214-244 | the savings score is a multiple of 10 in [0, 100]; 0 without income |
| FinancialHealth.SavingsRatePointsMonotone | src/lib/financial-health/score.ts:232-237 | a higher savings rate never lowers the score |
| FinancialHealth.EmergencyFund | src/lib/financial-health/score.ts:249-268 | the fund score is a multiple of 10 in [0, 100], and at least 70 iff 3 or more months are set aside |
| FinancialHealth.EmergencyFundMonotone | src/lib/financial-health/score.ts:249-268 | more months set aside never lower the score |
| FinancialHealth.DebtToIncome | src/lib/financial-health/score.ts:273-303 | the DTI score is a multiple of 10 in [0, 100]: 0 without income, 100 with income and no debt payment |
| FinancialHealth.DtiPointsMonotone | src/lib/financial-health/score.ts:291-296 | for a positive DTI, a higher DTI never raises the score, and any positive DTI scores below a DTI of exactly 0 |
| FinancialHealth.ComponentsInRange | src/lib/financial-health/score.ts:47-63 | every sub-score is in [0, 100] and on its grid |
| FinancialHealth.TotalScore | src/lib/financial-health/score.ts:66-72 | the weights sum to 1: sub-scores in range give a total in [0, 100], and equal sub-scores give that score |
| FinancialHealth.TotalScoreMonotone | src/lib/financial-health/score.ts:66-72 | a better sub-score never lowers the total |
| FinancialHealth.CalculateGrade | src/lib/financial-health/score.ts:308-317 | each grade is returned exactly on its band: A+ from 95, A 90–95, B+ 85–90, B 80–85, C+ 75–80, C 70–75, D 60–70, F below 60 |
| FinancialHealth.RoundingIsExact | src/lib/financial-health/score.ts:91 | on in-range sub-scores the total is already a whole number of tenths, so rounding leaves it unchanged |
| FinancialHealth.GradeMonotone | src/lib/financial-health/score.ts:308-317 | a higher total never gives a worse grade |
| FinancialHealth.InsightSavingsRate | src/lib/financial-health/score.ts:326 | the unguarded savings rate is finite whenever income is non-zero |
| FinancialHealth.GenerateInsights | src/lib/financial-health/score.ts:322-351 | score insight first, then the tier for ≥ 90 / ≥ 70 / below, then positive net worth or its warning; a fourth insight appears iff the JavaScript savings rate is ≥ 20 or < 0, and it is the high-savings remark quoting the rate in the first case and the deficit remark in the second |
| FinancialHealth.NoIncomeInsights | src/lib/financial-health/score.ts:326-348 | without income, any spending yields the deficit insight (−Infinity rate), and no spending yields none (NaN rate) |
| FinancialHealth.RuleAdviceAt | src/lib/financial-health/score.ts:360-384 | the advice of rule `i` has rank `i` |
| FinancialHealth.RulesUpToContents | src/lib/financial-health/score.ts:360-384 | advice is among the first `n` rules' output iff its rule is among them, fires, and produced it |
| FinancialHealth.RulesUpToEmpty | src/lib/financial-health/score.ts:360-384 | no firing rule, no advice |
| FinancialHealth.RulesUpToInOrder | src/lib/financial-health/score.ts:360-384 | advice appears in rule order |
| FinancialHealth.GenerateRecommendations | src/lib/financial-health/score.ts:356-392 | each advice item appears iff its sub-score is below its threshold (fund < 70, debt < 60, savings < 60, DTI < 50, cash flow < 50); the long-term-investing remark appears iff none does, and then alone |
| FinancialHealth.RecommendationsInRuleOrder | src/lib/financial-health/score.ts:356-392 | recommendations come in the rules' order, each at most once |
| FinancialHealth.CalculateFinancialHealthScore | src/lib/financial-health/score.ts:46-104 | the rounded total is exactly the weighted total, in [0, 100]; the grade is that total's; the components are the six sub-scores, the insights are those generated for the unrounded total, and the recommendations those generated for the components (so the first insight quotes the score and there is always a recommendation) |
| FinancialHealth.UnreadFieldsIgnored | src/lib/financial-health/score.ts:46-104 | the emergency-fund flag, age and the investment and debt breakdowns never change the result |
| FinancialHealth.ExemplaryHousehold | src/lib/financial-health/score.ts:46-104 | a debt-free, liquid, high-saving household with six months of reserves scores 100 on every component: A+ with the investing remark |
| MonteCarlo.EventImpact | src/lib/simulation/monte-carlo.ts:99-102 | a year without events has no impact |
| MonteCarlo.Sample | src/lib/simulation/monte-carlo.ts:52-57 | a draw is the mean for a zero deviate or spread, and with a positive spread it is at least the mean iff the deviate is non-negative |
| MonteCarlo.Grow | src/lib/simulation/monte-carlo.ts:88-110 | income and expenses are unchanged at 0% growth; the new net worth is the old one plus twelve months of the new savings, the return and the events, clamped at 0 |
| MonteCarlo.Step | src/lib/simulation/monte-carlo.ts:80-113 | net worth after a simulated year is never negative |
| MonteCarlo.NetWorthsAt | src/lib/simulation/monte-carlo.ts:75-113 | entry `y` of the trajectory is the net worth after `y` years |
| MonteCarlo.Trajectory | src/lib/simulation/monte-carlo.ts:62-116 | one value per year plus the start, the first being the current net worth and all later ones non-negative |
| MonteCarlo.RunSingleSimulation | src/lib/simulation/monte-carlo.ts:62-116 | the yearly loop computes the specified trajectory |
| MonteCarlo.StepReads | src/lib/simulation/monte-carlo.ts:80-113 | a year's step depends only on the income, return and expense rates, their deviates and that year's events |
| MonteCarlo.InflationIsIgnored | src/lib/simulation/monte-carlo.ts:82 | the inflation draw never affects the trajectory |
| MonteCarlo.OutOfRangeEventsIgnored | src/lib/simulation/monte-carlo.ts:80-102 | an event outside years 1..simulationYears changes nothing |
| MonteCarlo.StepMonotone | src/lib/simulation/monte-carlo.ts:88-110 | with a return of at least −100%, more net worth at the start of a year never gives less at its end |
| MonteCarlo.StartMonotone | src/lib/simulation/monte-carlo.ts:62-116 | with returns of at least −100%, a larger starting net worth never gives less in any year |
| MonteCarlo.Trajectories | src/lib/simulation/monte-carlo.ts:127-130 | one trajectory per run, each of the right length |
| MonteCarlo.Column | src/lib/simulation/monte-carlo.ts:143 | the column holds every run's value for that year, in run order |
| MonteCarlo.PercentileIndex | src/lib/simulation/monte-carlo.ts:145-149 | `floor(n × p)` is a valid index for `p` in [0, 1) |
| MonteCarlo.PercentileIndexMonotone | src/lib/simulation/monte-carlo.ts:145-149 | a higher percentile never gives a lower index |
| MonteCarlo.Percentile | src/lib/simulation/monte-carlo.ts:143-149 | a percentile is one of the values |
| MonteCarlo.PercentileMonotone | src/lib/simulation/monte-carlo.ts:143-149 | a higher percentile is never a smaller value |
| MonteCarlo.SumBounds | src/lib/simulation/monte-carlo.ts:154 | the sum of values between two bounds lies between `n` times each bound |
| MonteCarlo.CountPositivePermutation | src/lib/simulation/monte-carlo.ts:161 | the count of positive values does not depend on their order |
| MonteCarlo.BandAt | src/lib/simulation/monte-carlo.ts:142-150 | each year's band entry is that year's percentile |
| MonteCarlo.Summarize | src/lib/simulation/monte-carlo.ts:133-178 | the years are 0..N in order, and the returned trajectories are the first min(100, n) runs, unchanged |
| MonteCarlo.PercentileBandsOrdered | src/lib/simulation/monte-carlo.ts:142-150 | every band has one entry per year, and p10 ≤ p25 ≤ p50 ≤ p75 ≤ p90 in every year |
| MonteCarlo.MedianAndValueAtRisk | src/lib/simulation/monte-carlo.ts:153-165 | VaR ≤ median, the median is the final p50, and both are final values of some run |
| MonteCarlo.MeanBetweenFinalValues | src/lib/simulation/monte-carlo.ts:153-154 | the final mean lies between two runs' final values |
| MonteCarlo.VarianceNonNegative | src/lib/simulation/monte-carlo.ts:156-157 | the variance is non-negative |
| MonteCarlo.SuccessIsFractionAboveZero | src/lib/simulation/monte-carlo.ts:161-162 | the success probability is in [0, 1] and is the share of runs ending strictly above 0 |
| MonteCarlo.RunAllSimulations | src/lib/simulation/monte-carlo.ts:125-130 | the simulation loop collects each run's trajectory, in order |
| MonteCarlo.PercentileBands | src/lib/simulation/monte-carlo.ts:134-150 | the per-year loop builds the five specified bands |
| MonteCarlo.RunMonteCarloSimulation | src/lib/simulation/monte-carlo.ts:121-179 | the result is the specified summary of the runs' trajectories |
| MonteCarlo.BestCaseConfig | src/lib/simulation/monte-carlo.ts:195-213 | only the four rates change: lower inflation and expense-growth means, higher income-growth and return means; each of the four spreads is no wider (strictly narrower when positive) and stays non-negative |
| MonteCarlo.WorstCaseConfig | src/lib/simulation/monte-carlo.ts:217-235 | only the four rates change, in the opposite directions; each of the four spreads is no narrower (strictly wider when positive) |
| MonteCarlo.BestCaseReturnsMore | src/lib/simulation/monte-carlo.ts:205-230 | for the same deviate, the best case draws a return at least the worst case's exactly when deviate × base spread ≤ 4 |
| MonteCarlo.RunScenarioComparison | src/lib/simulation/monte-carlo.ts:190-243 | the three results summarise the base, best-case and worst-case configurations |
| MonteCarlo.CalculateGoalProbability | src/lib/simulation/monte-carlo.ts:248-255 | finite iff there are runs, and then the number of runs reaching the target divided by the number of runs, in [0, 1]; NaN iff there are none |
| MonteCarlo.CountReachingMonotone | src/lib/simulation/monte-carlo.ts:253 | a higher target is reached by no more runs |
| MonteCarlo.GoalProbabilityMonotone | src/lib/simulation/monte-carlo.ts:248-255 | a higher target never has a higher probability |
| MonteCarlo.CountReaching | src/lib/simulation/monte-carlo.ts:253 | the count is the number of runs whose entry at the target year exists and is at or above the target: it equals the number of runs iff every run reaches, is 0 iff none does, and is 0 for a negative year |
| SpendingMap.KeyOf | src/app/api/location/spending-map/route.ts:91 | a location is grouped only under a non-empty key |
| SpendingMap.AbsAmount | src/app/api/location/spending-map/route.ts:95 | the absolute amount is non-negative, and positive for a present non-zero amount |
| SpendingMap.Keyed | src/app/api/location/spending-map/route.ts:91-95 | at most one keyed entry per location |
| SpendingMap.Group | src/app/api/location/spending-map/route.ts:89-100 | no more groups than keyed locations, no groups iff no keyed locations, and the last location's key always has a group |
| SpendingMap.KeyedAmountsNonNegative | src/app/api/location/spending-map/route.ts:95 | every grouped amount is non-negative |
| SpendingMap.GroupHoldsTotals | src/app/api/location/spending-map/route.ts:89-100 | a key has a group iff some location has it, and the group holds that key's total absolute amount and its location count |
| SpendingMap.OrderListsEachGroupOnce | src/app/api/location/spending-map/route.ts:92-94 | each group is listed once, and the listed keys are exactly the groups |
| SpendingMap.FirstAt | src/app/api/location/spending-map/route.ts:92-94 | the position of a key's first location: that location has the key and no earlier one does |
| SpendingMap.SeenIffCounted | src/app/api/location/spending-map/route.ts:92-94 | a key has a first location iff its location count is positive, and so iff it has a group |
| SpendingMap.OrderIsFirstSeen | src/app/api/location/spending-map/route.ts:92-94 | groups are listed in the order their keys first occur among the locations |
| SpendingMap.GroupsAreNonEmpty | src/app/api/location/spending-map/route.ts:89-100 | every group counts at least one location and has a non-negative amount |
| SpendingMap.CountsAddUp | src/app/api/location/spending-map/route.ts:96 | group counts add up to the number of keyed locations |
| SpendingMap.Accumulate | src/app/api/location/spending-map/route.ts:90-97 | one reduce step adds the location to its group, creating the group on first sight |
| SpendingMap.GroupLocations | src/app/api/location/spending-map/route.ts:89-100 | the reduce computes the specified grouping |
| SpendingMap.EntriesAt | src/app/api/location/spending-map/route.ts:102-107 | each entry is the listed key with that group's amount and count |
| SpendingMap.SortDesc | src/app/api/location/spending-map/route.ts:108 | the sort returns a by-amount non-increasing permutation of the entries |
| SpendingMap.Top | src/app/api/location/spending-map/route.ts:102-109 | at most five groups, largest amount first |
| SpendingMap.TopAreGroups | src/app/api/location/spending-map/route.ts:102-109 | each reported entry is a group with its real total and count |
| SpendingMap.TopKeysDistinct | src/app/api/location/spending-map/route.ts:102-109 | no group is reported twice, and exactly min(5, number of groups) are reported |
| SpendingMap.OmittedAreNoLarger | src/app/api/location/spending-map/route.ts:108-109 | no omitted group has a larger amount than any reported one |
| SpendingMap.SpendingStats | src/app/api/location/spending-map/route.ts:89-132 | both lists are the top five groups, by district and by place category |

## Left out

- The random source. `randomNormal`'s Box–Muller transform (`Math.random`, `Math.log`, `Math.cos`) is not modelled. The standard normal deviates are inputs, one set of four per run and simulated year.
- MonteCarlo.Summarize: it reports the variance of the final values instead of its square root, because `Math.sqrt` is not modelled. Every other statistic is as in the source.
- MonteCarlo.RunMonteCarloSimulation: it requires at least one simulation. With none, the source divides by 0 and indexes an empty array, yielding NaN and `undefined`, which is not modelled.
- MonteCarlo.Config: simulationYears is a natural number. A negative or fractional year count, and a fractional target year in MonteCarlo.CalculateGoalProbability (an `undefined` lookup), are not modelled.
- Floating point. Money is a real number: IEEE rounding, overflow and NaN inputs are not modelled. The NaN and infinities produced by dividing by zero are modelled (`JsMath.JsNumber`) where the source divides without a guard.
- Message text. Korean messages and descriptions are tags that carry the figures they quote. Number formatting (`toLocaleString`, `toFixed`) is not modelled.
- DsrDetector.SimulateDSRImprovement: a refinance is modelled only when there are loans and their average rate is non-zero (`RefinanceDefined`). Otherwise the source computes NaN from 0/0 or x/0.
- DsrDetector.SimulateDSRImprovement: the new risk level uses the corrected, guarded DTI (0 when the new income is not positive), not the unguarded division of line 400. The two agree for every positive new income. At zero income with a positive payment the source reports Danger and the model the DSR level; at a negative income they may also differ. See "## Findings".
- DsrDetector.SimulateDSRImprovement: only the DSR of the current assessment is computed, because the rest of it is never read.
- DsrDetector.MonthlyRate: with no balance the source's weighted rate is 0/0 (NaN). The model uses 0. The amortisation loop never runs then, so the projection is the same.
- SpendingMap.SortDesc: the insertion sort is stable like the engine's sort, but the contract does not state stability. Equal-amount groups may be reported in either order as far as the proofs go.
- SpendingMap.Group: keys keep first-seen order. JavaScript's enumeration of integer-like keys first, and keys clashing with `Object.prototype` members, are not modelled.
- The spending-map route outside lines 89–132 (authentication, database queries, geocoding, the response) and the API routes that call the other modules: they are I/O. Dates and clocks do not occur in the modelled code.

## Findings

| source | as written | input that shows it | evidently intended | confidence | as-written member | corrected member |
|---|---|---|---|---|---|---|
| src/lib/risk/dsr-detector.ts:400 | the new risk level takes DTI as `(newMonthlyPayment / newMonthlyIncome) * 100` without the zero-income guard that the improved DSR (395-397) and `calculateDSR` (63-65) apply | monthly income 0, debt payment 1,000,000, no other obligations, empty scenario: current DSR 0 and level Safe, improved DSR 0 but new level Danger (DTI is +Infinity) | the DTI guarded as in `calculateDSR`, so an empty scenario keeps the current level | high; not executed | DsrDetector.EmptyScenarioAsWrittenDisagrees | DsrDetector.EmptyScenarioKeepsAssessment |

=== FILE: dsr_detector.dfy ===
/**
 * DSR (debt service ratio) risk detection: ratios, a four-level risk classification,
 * an additive risk score, rule-based alerts and recommendations, a month-by-month
 * debt payoff projection and a what-if recomputation.
 * Messages are modelled as tags carrying the figures they cite.
 */
module DsrDetector {
  import opened JsMath

  datatype Loan = Loan(
    loanType: string,
    balance: real,
    interestRate: real,        // annual, percent
    monthlyPayment: real,
    remainingMonths: int)

  datatype DSRData = DSRData(
    monthlyIncome: real,
    annualIncome: real,
    monthlyDebtPayment: real,
    monthlyPrincipal: real,
    monthlyInterest: real,
    loans: seq<Loan>,
    otherMonthlyObligations: real)

  datatype RiskLevel = Safe | Caution | Warning | Danger

  datatype Severity = Info | Warn | Critical

  /** Which rule produced an alert. */
  datatype AlertKind = DsrDanger | DsrHigh | DsrElevated | DtiDanger | HighInterestDebt | ManyLoans | Healthy

  /** An alert: its severity, the rule behind it, whether action is required, and the figures its message cites. */
  datatype Alert = Alert(severity: Severity, kind: AlertKind, actionRequired: bool, figures: seq<real>)

  /** A recommendation, with the amount or rate it cites where it cites one. */
  datatype Recommendation =
    | SeekProfessionalHelp
    | LowerDsrUrgently
    | StopNewBorrowing
    | ApprovalMayBeDifficult
    | RepayHighestRateFirst(rate: real)
    | ConsiderLowRateRefinance
    | RepaySmallestLoanFirst(balance: real)
    | ConsolidateLoans
    | ReducePaymentsBy(amount: real)
    | KeepCurrentCourse
    | PrepayWithSpareCash

  /** The outcome of the payoff loop: a month count with the interest paid, or never. */
  datatype Payoff = FinitePayoff(months: nat, totalInterest: real) | InfinitePayoff

  datatype Projection = Projection(payoff: Payoff, potentialSavings: real)

  datatype DSRResult = DSRResult(
    dsr: real,
    dti: real,
    riskLevel: RiskLevel,
    riskScore: int,
    alerts: seq<Alert>,
    recommendations: seq<Recommendation>,
    projection: Projection)

  const HighRate: real := 15.0
  const SmallBalance: real := 5000000.0
  const MaxMonths: nat := 600

  // ---------------------------------------------------------------- loan lists

  function SumOf(loans: seq<Loan>, f: Loan -> real): real
  {
    if loans == [] then 0.0 else f(loans[0]) + SumOf(loans[1..], f)
  }

  function BalanceOf(l: Loan): real { l.balance }
  function PaymentOf(l: Loan): real { l.monthlyPayment }
  function RateOf(l: Loan): real { l.interestRate }
  function WeightedRateOf(l: Loan): real { l.interestRate * l.balance }

  /** Loans at an annual rate of 15% or more. */
  function HighInterestLoans(loans: seq<Loan>): (r: seq<Loan>)
    ensures |r| <= |loans|
  {
    if loans == [] then []
    else
      assert loans == [loans[0]] + loans[1..];
      (if loans[0].interestRate >= HighRate then [loans[0]] else []) + HighInterestLoans(loans[1..])
  }

  /** Loans with a balance below 5,000,000. */
  function SmallLoans(loans: seq<Loan>): (r: seq<Loan>)
    ensures |r| <= |loans|
  {
    if loans == [] then []
    else
      assert loans == [loans[0]] + loans[1..];
      (if loans[0].balance < SmallBalance then [loans[0]] else []) + SmallLoans(loans[1..])
  }

  lemma {:induction false} HighInterestMember(loans: seq<Loan>, l: Loan)
    ensures l in HighInterestLoans(loans) <==> l in loans && l.interestRate >= HighRate
  {
    if loans != [] {
      HighInterestMember(loans[1..], l);
      assert loans == [loans[0]] + loans[1..];
    }
  }

  lemma {:induction false} SmallLoanMember(loans: seq<Loan>, l: Loan)
    ensures l in SmallLoans(loans) <==> l in loans && l.balance < SmallBalance
  {
    if loans != [] {
      SmallLoanMember(loans[1..], l);
      assert loans == [loans[0]] + loans[1..];
    }
  }

  function TotalBalance(loans: seq<Loan>): real
  {
    SumOf(loans, BalanceOf)
  }

  function TotalMonthlyPayment(loans: seq<Loan>): real
  {
    SumOf(loans, PaymentOf)
  }

  /** The highest interest rate among the loans (the head of the list sorted by rate, descending). */
  function MaxRate(loans: seq<Loan>): (r: real)
    requires loans != []
    ensures exists l :: l in loans && l.interestRate == r
    ensures forall l :: l in loans ==> l.interestRate <= r
  {
    if |loans| == 1 then loans[0].interestRate
    else
      var rest := MaxRate(loans[1..]);
      assert loans == [loans[0]] + loans[1..];
      if loans[0].interestRate >= rest then loans[0].interestRate else rest
  }

  /** The smallest balance among the loans (the head of the list sorted by balance, ascending). */
  function MinBalance(loans: seq<Loan>): (r: real)
    requires loans != []
    ensures exists l :: l in loans && l.balance == r
    ensures forall l :: l in loans ==> r <= l.balance
  {
    if |loans| == 1 then loans[0].balance
    else
      var rest := MinBalance(loans[1..]);
      assert loans == [loans[0]] + loans[1..];
      if loans[0].balance <= rest then loans[0].balance else rest
  }

  // ---------------------------------------------------------------- ratios

  /** DSR in percent: debt payments plus other obligations over income, 0 when there is no positive income. */
  function Dsr(monthlyIncome: real, monthlyDebtPayment: real, otherMonthlyObligations: real): (r: real)
    ensures monthlyIncome > 0.0 ==> r * monthlyIncome == (monthlyDebtPayment + otherMonthlyObligations) * 100.0
    ensures monthlyIncome <= 0.0 ==> r == 0.0
  {
    if monthlyIncome > 0.0 then (monthlyDebtPayment + otherMonthlyObligations) / monthlyIncome * 100.0 else 0.0
  }

  /** DTI in percent: debt payments over income, 0 when there is no positive income. */
  function Dti(monthlyIncome: real, monthlyDebtPayment: real): (r: real)
    ensures monthlyIncome > 0.0 ==> r * monthlyIncome == monthlyDebtPayment * 100.0
    ensures monthlyIncome <= 0.0 ==> r == 0.0
  {
    if monthlyIncome > 0.0 then monthlyDebtPayment / monthlyIncome * 100.0 else 0.0
  }

  /** DSR exceeds DTI by exactly the share of income taken by the other obligations. */
  lemma DsrIsDtiPlusObligations(monthlyIncome: real, monthlyDebtPayment: real, other: real)
    ensures Dsr(monthlyIncome, monthlyDebtPayment, other) == Dti(monthlyIncome, monthlyDebtPayment) + Dti(monthlyIncome, other)
  {
    if monthlyIncome > 0.0 {
      assert (monthlyDebtPayment + other) / monthlyIncome == monthlyDebtPayment / monthlyIncome + other / monthlyIncome;
    }
  }

  /** With income held fixed, a larger debt payment never lowers DSR or DTI. */
  lemma RatiosGrowWithPayment(monthlyIncome: real, p1: real, p2: real, other: real)
    requires p1 <= p2
    ensures Dsr(monthlyIncome, p1, other) <= Dsr(monthlyIncome, p2, other)
    ensures Dti(monthlyIncome, p1) <= Dti(monthlyIncome, p2)
  {
    if monthlyIncome > 0.0 {
      DivideMonotone(p1 + other, p2 + other, monthlyIncome);
      DivideMonotone(p1, p2, monthlyIncome);
    }
  }

  // ---------------------------------------------------------------- risk level

  /**
   * First matching rule, from the most severe level down: each level is reached exactly
   * when its own threshold is met and no more severe one is.
   */
  function DetermineRiskLevel(dsr: real, dti: real): (level: RiskLevel)
    ensures level == Danger <==> dsr >= 60.0 || dti >= 50.0
    ensures level == Warning <==> !(dsr >= 60.0 || dti >= 50.0) && (dsr >= 50.0 || dti >= 40.0)
    ensures level == Caution <==> dsr < 50.0 && dti < 40.0 && (dsr >= 40.0 || dti >= 30.0)
    ensures level == Safe <==> dsr < 40.0 && dti < 30.0
  {
    if dsr >= 60.0 || dti >= 50.0 then Danger
    else if dsr >= 50.0 || dti >= 40.0 then Warning
    else if dsr >= 40.0 || dti >= 30.0 then Caution
    else Safe
  }

  function LevelRank(level: RiskLevel): nat
  {
    match level
    case Safe => 0
    case Caution => 1
    case Warning => 2
    case Danger => 3
  }

  /** Raising DSR or DTI never lowers the risk level. */
  lemma RiskLevelMonotone(dsr1: real, dti1: real, dsr2: real, dti2: real)
    requires dsr1 <= dsr2 && dti1 <= dti2
    ensures LevelRank(DetermineRiskLevel(dsr1, dti1)) <= LevelRank(DetermineRiskLevel(dsr2, dti2))
  {
  }

  // ---------------------------------------------------------------- risk score

  /** The DSR part of the risk score: bands of 50/45/35/25/15, linear below 30%. */
  function DsrPoints(dsr: real): (p: real)
    ensures p <= 50.0
    ensures dsr >= 0.0 ==> p >= 0.0
  {
    if dsr >= 70.0 then 50.0
    else if dsr >= 60.0 then 45.0
    else if dsr >= 50.0 then 35.0
    else if dsr >= 40.0 then 25.0
    else if dsr >= 30.0 then 15.0
    else dsr / 30.0 * 15.0
  }

  /** The DTI part of the risk score: bands of 30/25/20, linear below 30%. */
  function DtiPoints(dti: real): (p: real)
    ensures p <= 30.0
    ensures dti >= 0.0 ==> p >= 0.0
  {
    if dti >= 50.0 then 30.0
    else if dti >= 40.0 then 25.0
    else if dti >= 30.0 then 20.0
    else dti / 30.0 * 20.0
  }

  /** The high-interest part: 5 points per loan at 15% or more, at most 20. */
  function HighInterestPoints(loans: seq<Loan>): (p: int)
    ensures 0 <= p <= 20
    ensures p == 5 * Min(|HighInterestLoans(loans)|, 4)
  {
    var n := |HighInterestLoans(loans)|;
    if n > 0 then Min(n * 5, 20) else 0
  }

  /** The risk score: the three parts added, rounded with Math.round, capped at 100. */
  function RiskScore(dsr: real, dti: real, loans: seq<Loan>): (score: int)
    ensures score <= 100
    ensures dsr >= 0.0 && dti >= 0.0 ==> score >= 0
  {
    Min(Round(DsrPoints(dsr) + DtiPoints(dti) + HighInterestPoints(loans) as real), 100)
  }

  lemma DsrPointsMonotone(a: real, b: real)
    requires a <= b
    ensures DsrPoints(a) <= DsrPoints(b)
  {
  }

  lemma DtiPointsMonotone(a: real, b: real)
    requires a <= b
    ensures DtiPoints(a) <= DtiPoints(b)
  {
  }

  lemma RoundMonotone(x: real, y: real)
    requires x <= y
    ensures Round(x) <= Round(y)
  {
  }

  /** The risk score is non-decreasing in DSR and in DTI. */
  lemma RiskScoreMonotone(dsr1: real, dti1: real, dsr2: real, dti2: real, loans: seq<Loan>)
    requires dsr1 <= dsr2 && dti1 <= dti2
    ensures RiskScore(dsr1, dti1, loans) <= RiskScore(dsr2, dti2, loans)
  {
    DsrPointsMonotone(dsr1, dsr2);
    DtiPointsMonotone(dti1, dti2);
    var h := HighInterestPoints(loans) as real;
    RoundMonotone(DsrPoints(dsr1) + DtiPoints(dti1) + h, DsrPoints(dsr2) + DtiPoints(dti2) + h);
  }

  /** With income fixed, a larger monthly debt payment never lowers the risk score. */
  lemma RiskScoreMonotoneInPayment(monthlyIncome: real, p1: real, p2: real, other: real, loans: seq<Loan>)
    requires p1 <= p2
    ensures RiskScore(Dsr(monthlyIncome, p1, other), Dti(monthlyIncome, p1), loans)
         <= RiskScore(Dsr(monthlyIncome, p2, other), Dti(monthlyIncome, p2), loans)
  {
    RatiosGrowWithPayment(monthlyIncome, p1, p2, other);
    RiskScoreMonotone(Dsr(monthlyIncome, p1, other), Dti(monthlyIncome, p1),
                      Dsr(monthlyIncome, p2, other), Dti(monthlyIncome, p2), loans);
  }

  // ---------------------------------------------------------------- alerts

  /** The order in which the rules append their alerts (the three DSR alerts exclude each other). */
  function KindRank(k: AlertKind): nat
  {
    match k
    case DsrDanger => 0
    case DsrHigh => 0
    case DsrElevated => 0
    case DtiDanger => 1
    case HighInterestDebt => 2
    case ManyLoans => 3
    case Healthy => 4
  }

  /** The alert each rule emits: severity, action flag and the figures its message cites. */
  function MakeAlert(kind: AlertKind, dsr: real, dti: real, loans: seq<Loan>): (a: Alert)
    ensures a.kind == kind
    ensures a.severity == Critical <==> kind == DsrDanger || kind == DtiDanger
    ensures a.severity == Info <==> kind == Healthy
    ensures a.actionRequired <==> kind == DsrDanger || kind == DsrHigh || kind == DtiDanger || kind == HighInterestDebt
  {
    var high := HighInterestLoans(loans);
    match kind
    case DsrDanger => Alert(Critical, kind, true, [dsr])
    case DsrHigh => Alert(Warn, kind, true, [dsr])
    case DsrElevated => Alert(Warn, kind, false, [dsr])
    case DtiDanger => Alert(Critical, kind, true, [dti])
    case HighInterestDebt => Alert(Warn, kind, true, [|high| as real, TotalBalance(high)])
    case ManyLoans => Alert(Warn, kind, false, [|loans| as real])
    case Healthy => Alert(Info, kind, false, [dsr, dti])
  }

  /**
   * The rules that fire, in the order their alerts are appended; the healthy notice only when
   * none does. `highCount` is the number of high-interest loans, `loanCount` the number of loans.
   */
  function AlertKinds(dsr: real, dti: real, highCount: nat, loanCount: nat): (ks: seq<AlertKind>)
    ensures ks != []
    ensures DsrDanger in ks <==> dsr >= 60.0
    ensures DsrHigh in ks <==> 50.0 <= dsr < 60.0
    ensures DsrElevated in ks <==> 40.0 <= dsr < 50.0
    ensures DtiDanger in ks <==> dti >= 40.0
    ensures HighInterestDebt in ks <==> highCount > 0
    ensures ManyLoans in ks <==> loanCount >= 5
    ensures Healthy in ks <==> !(dsr >= 40.0 || dti >= 40.0 || highCount > 0 || loanCount >= 5)
    ensures Healthy in ks ==> ks == [Healthy]
  {
    var dsrKinds :=
      if dsr >= 60.0 then [DsrDanger]
      else if dsr >= 50.0 then [DsrHigh]
      else if dsr >= 40.0 then [DsrElevated]
      else [];
    var dtiKinds := if dti >= 40.0 then [DtiDanger] else [];
    var highKinds := if highCount > 0 then [HighInterestDebt] else [];
    var manyKinds := if loanCount >= 5 then [ManyLoans] else [];
    var found := dsrKinds + dtiKinds + highKinds + manyKinds;
    if found == [] then [Healthy] else found
  }

  /** Alerts follow rule order: the DSR alert first, then DTI, high-interest and loan-count alerts. */
  predicate InRuleOrder(ks: seq<AlertKind>)
  {
    forall i, j :: 0 <= i < j < |ks| ==> KindRank(ks[i]) < KindRank(ks[j])
  }

  lemma InRuleOrderConcat(a: seq<AlertKind>, b: seq<AlertKind>)
    requires InRuleOrder(a) && InRuleOrder(b)
    requires forall x, y :: x in a && y in b ==> KindRank(x) < KindRank(y)
    ensures InRuleOrder(a + b)
  {
    forall i, j | 0 <= i < j < |a + b|
      ensures KindRank((a + b)[i]) < KindRank((a + b)[j])
    {
      if j < |a| {
      } else if i >= |a| {
        assert (a + b)[i] == b[i - |a|] && (a + b)[j] == b[j - |a|];
      } else {
        assert (a + b)[i] in a && (a + b)[j] in b;
      }
    }
  }

  /** No rule's alert appears twice and the rules' alerts keep the order in which the rules run. */
  lemma AlertsInRuleOrder(dsr: real, dti: real, highCount: nat, loanCount: nat)
    ensures InRuleOrder(AlertKinds(dsr, dti, highCount, loanCount))
  {
    var dsrKinds :=
      if dsr >= 60.0 then [DsrDanger]
      else if dsr >= 50.0 then [DsrHigh]
      else if dsr >= 40.0 then [DsrElevated]
      else [];
    var dtiKinds := if dti >= 40.0 then [DtiDanger] else [];
    var highKinds := if highCount > 0 then [HighInterestDebt] else [];
    var manyKinds := if loanCount >= 5 then [ManyLoans] else [];
    InRuleOrderConcat(dsrKinds, dtiKinds);
    InRuleOrderConcat(dsrKinds + dtiKinds, highKinds);
    InRuleOrderConcat(dsrKinds + dtiKinds + highKinds, manyKinds);
  }

  /** The alert list: one alert per firing rule, in rule order, never empty. */
  function GenerateAlerts(dsr: real, dti: real, loans: seq<Loan>): (r: seq<Alert>)
    ensures |r| == |AlertKinds(dsr, dti, |HighInterestLoans(loans)|, |loans|)| && r != []
    ensures forall i :: 0 <= i < |r| ==> r[i].kind == AlertKinds(dsr, dti, |HighInterestLoans(loans)|, |loans|)[i]
    ensures forall a :: a in r ==> a == MakeAlert(a.kind, dsr, dti, loans)
  {
    var ks := AlertKinds(dsr, dti, |HighInterestLoans(loans)|, |loans|);
    seq(|ks|, i requires 0 <= i < |ks| => MakeAlert(ks[i], dsr, dti, loans))
  }

  /** The alert list holds exactly the alerts its rules build, one per fired rule. */
  lemma AlertsOfKinds(dsr: real, dti: real, loans: seq<Loan>)
    ensures forall k :: k in AlertKinds(dsr, dti, |HighInterestLoans(loans)|, |loans|) ==>
              MakeAlert(k, dsr, dti, loans) in GenerateAlerts(dsr, dti, loans)
    ensures forall a :: a in GenerateAlerts(dsr, dti, loans) ==>
              a.kind in AlertKinds(dsr, dti, |HighInterestLoans(loans)|, |loans|)
  {
    var r := GenerateAlerts(dsr, dti, loans);
    var ks := AlertKinds(dsr, dti, |HighInterestLoans(loans)|, |loans|);
    forall k | k in ks
      ensures MakeAlert(k, dsr, dti, loans) in r
    {
      var i :| 0 <= i < |ks| && ks[i] == k;
      assert r[i] == MakeAlert(k, dsr, dti, loans);
    }
    forall a | a in r
      ensures a.kind in ks
    {
      var i :| 0 <= i < |r| && r[i] == a;
    }
  }

  /** A critical alert is raised exactly when DSR is at least 60 or DTI at least 40. */
  lemma CriticalAlertIffDanger(dsr: real, dti: real, loans: seq<Loan>)
    ensures (exists a :: a in GenerateAlerts(dsr, dti, loans) && a.severity == Critical) <==> dsr >= 60.0 || dti >= 40.0
  {
    AlertsOfKinds(dsr, dti, loans);
    if dsr >= 60.0 {
      assert MakeAlert(DsrDanger, dsr, dti, loans) in GenerateAlerts(dsr, dti, loans);
    } else if dti >= 40.0 {
      assert MakeAlert(DtiDanger, dsr, dti, loans) in GenerateAlerts(dsr, dti, loans);
    }
  }

  /** Some alert requires action exactly when DSR is at least 50, DTI at least 40 or some loan carries a high rate. */
  lemma ActionAlertIff(dsr: real, dti: real, loans: seq<Loan>)
    ensures (exists a :: a in GenerateAlerts(dsr, dti, loans) && a.actionRequired)
        <==> dsr >= 50.0 || dti >= 40.0 || |HighInterestLoans(loans)| > 0
  {
    AlertsOfKinds(dsr, dti, loans);
    if dsr >= 60.0 {
      assert MakeAlert(DsrDanger, dsr, dti, loans) in GenerateAlerts(dsr, dti, loans);
    } else if dsr >= 50.0 {
      assert MakeAlert(DsrHigh, dsr, dti, loans) in GenerateAlerts(dsr, dti, loans);
    } else if dti >= 40.0 {
      assert MakeAlert(DtiDanger, dsr, dti, loans) in GenerateAlerts(dsr, dti, loans);
    } else if |HighInterestLoans(loans)| > 0 {
      assert MakeAlert(HighInterestDebt, dsr, dti, loans) in GenerateAlerts(dsr, dti, loans);
    }
  }

  /** The informational alert is raised exactly when no rule fires. */
  lemma InfoAlertIffHealthy(dsr: real, dti: real, loans: seq<Loan>)
    ensures (exists a :: a in GenerateAlerts(dsr, dti, loans) && a.severity == Info)
        <==> !(dsr >= 40.0 || dti >= 40.0 || |HighInterestLoans(loans)| > 0 || |loans| >= 5)
  {
    AlertsOfKinds(dsr, dti, loans);
    if !(dsr >= 40.0 || dti >= 40.0 || |HighInterestLoans(loans)| > 0 || |loans| >= 5) {
      assert MakeAlert(Healthy, dsr, dti, loans) in GenerateAlerts(dsr, dti, loans);
    }
  }

  // ---------------------------------------------------------------- recommendations

  /** The payment reduction that would bring loan payments down to 30% of income. */
  function ReductionNeeded(loans: seq<Loan>, monthlyIncome: real): real
  {
    TotalMonthlyPayment(loans) - monthlyIncome * 0.3
  }

  /** The highest rate among the loans at 15% or more (the head of that list sorted by rate), if any. */
  function HighestHighRate(loans: seq<Loan>): Option<real>
  {
    var high := HighInterestLoans(loans);
    if |high| > 0 then Some(MaxRate(high)) else None
  }

  /** The smallest balance among the loans under 5,000,000 (the head of that list sorted by balance), if any. */
  function SmallestSmallBalance(loans: seq<Loan>): Option<real>
  {
    var small := SmallLoans(loans);
    if |small| > 0 then Some(MinBalance(small)) else None
  }

  lemma HighestHighRateCited(loans: seq<Loan>)
    ensures HighestHighRate(loans).None? <==> forall l :: l in loans ==> l.interestRate < HighRate
    ensures HighestHighRate(loans).Some? ==>
              (exists l :: l in loans && l.interestRate >= HighRate && l.interestRate == HighestHighRate(loans).value)
              && (forall l :: l in loans && l.interestRate >= HighRate ==> l.interestRate <= HighestHighRate(loans).value)
  {
    var high := HighInterestLoans(loans);
    forall l | l in loans
      ensures l in high <==> l.interestRate >= HighRate
    {
      HighInterestMember(loans, l);
    }
    if |high| > 0 {
      var highest := MaxRate(high);
      assert exists l :: l in high && l.interestRate == highest;
      var top :| top in high && top.interestRate == highest;
      HighInterestMember(loans, top);
    } else {
      forall l | l in loans
        ensures l.interestRate < HighRate
      {
        assert l !in high;
      }
    }
  }

  lemma SmallestSmallBalanceCited(loans: seq<Loan>)
    ensures SmallestSmallBalance(loans).None? <==> forall l :: l in loans ==> l.balance >= SmallBalance
    ensures SmallestSmallBalance(loans).Some? ==>
              (exists l :: l in loans && l.balance < SmallBalance && l.balance == SmallestSmallBalance(loans).value)
              && (forall l :: l in loans && l.balance < SmallBalance ==> SmallestSmallBalance(loans).value <= l.balance)
  {
    var small := SmallLoans(loans);
    forall l | l in loans
      ensures l in small <==> l.balance < SmallBalance
    {
      SmallLoanMember(loans, l);
    }
    if |small| > 0 {
      var smallest := MinBalance(small);
      assert exists l :: l in small && l.balance == smallest;
      var least :| least in small && least.balance == smallest;
      SmallLoanMember(loans, least);
    } else {
      forall l | l in loans
        ensures l.balance >= SmallBalance
      {
        assert l !in small;
      }
    }
  }

  /** True when at least one recommendation rule fires. */
  predicate AnyAdviceRule(dsr: real, dti: real, highest: Option<real>, smallest: Option<real>, loanCount: nat, reduction: real)
  {
    dsr >= 40.0 || highest.Some? || smallest.Some? || loanCount >= 3 || (dti >= 30.0 && reduction > 0.0)
  }

  /**
   * The advice rules over the facts they read: the DSR band, the highest high rate, the
   * smallest small balance, the number of loans and the payment reduction; the two default
   * remarks when no rule fires.
   */
  function Advice(dsr: real, dti: real, highest: Option<real>, smallest: Option<real>, loanCount: nat, reduction: real)
    : (r: seq<Recommendation>)
    ensures r != []
    ensures KeepCurrentCourse in r <==> !AnyAdviceRule(dsr, dti, highest, smallest, loanCount, reduction)
    ensures !AnyAdviceRule(dsr, dti, highest, smallest, loanCount, reduction) ==> r == [KeepCurrentCourse, PrepayWithSpareCash]
  {
    var dsrAdvice :=
      if dsr >= 60.0 then [SeekProfessionalHelp, LowerDsrUrgently]
      else if dsr >= 50.0 then [StopNewBorrowing]
      else if dsr >= 40.0 then [ApprovalMayBeDifficult]
      else [];
    var rateAdvice := if highest.Some? then [RepayHighestRateFirst(highest.value), ConsiderLowRateRefinance] else [];
    var smallAdvice := if smallest.Some? then [RepaySmallestLoanFirst(smallest.value)] else [];
    var consolidation := if loanCount >= 3 then [ConsolidateLoans] else [];
    var budget := if dti >= 30.0 && reduction > 0.0 then [ReducePaymentsBy(reduction)] else [];
    var found := dsrAdvice + rateAdvice + smallAdvice + consolidation + budget;
    if found == [] then [KeepCurrentCourse, PrepayWithSpareCash] else found
  }

  /** The advice list without the defaults: every fired rule's advice, in rule order. */
  lemma AdviceParts(dsr: real, dti: real, highest: Option<real>, smallest: Option<real>, loanCount: nat, reduction: real,
                    x: Recommendation)
    requires x != KeepCurrentCourse && x != PrepayWithSpareCash
    ensures x in Advice(dsr, dti, highest, smallest, loanCount, reduction) <==>
      || (x in [SeekProfessionalHelp, LowerDsrUrgently] && dsr >= 60.0)
      || (x == StopNewBorrowing && 50.0 <= dsr < 60.0)
      || (x == ApprovalMayBeDifficult && 40.0 <= dsr < 50.0)
      || (highest.Some? && x in [RepayHighestRateFirst(highest.value), ConsiderLowRateRefinance])
      || (smallest.Some? && x == RepaySmallestLoanFirst(smallest.value))
      || (x == ConsolidateLoans && loanCount >= 3)
      || (x == ReducePaymentsBy(reduction) && dti >= 30.0 && reduction > 0.0)
  {
    var dsrAdvice :=
      if dsr >= 60.0 then [SeekProfessionalHelp, LowerDsrUrgently]
      else if dsr >= 50.0 then [StopNewBorrowing]
      else if dsr >= 40.0 then [ApprovalMayBeDifficult]
      else [];
    var rateAdvice := if highest.Some? then [RepayHighestRateFirst(highest.value), ConsiderLowRateRefinance] else [];
    var smallAdvice := if smallest.Some? then [RepaySmallestLoanFirst(smallest.value)] else [];
    var consolidation := if loanCount >= 3 then [ConsolidateLoans] else [];
    var budget := if dti >= 30.0 && reduction > 0.0 then [ReducePaymentsBy(reduction)] else [];
    var found := dsrAdvice + rateAdvice + smallAdvice + consolidation + budget;
    assert x in found <==> x in dsrAdvice || x in rateAdvice || x in smallAdvice || x in consolidation || x in budget;
  }

  /** A DSR of 60% or more, and only that, brings the two critical remarks. */
  lemma CriticalBandAdvice(dsr: real, dti: real, highest: Option<real>, smallest: Option<real>, loanCount: nat, reduction: real)
    ensures var r := Advice(dsr, dti, highest, smallest, loanCount, reduction);
      && (SeekProfessionalHelp in r <==> dsr >= 60.0)
      && (LowerDsrUrgently in r <==> dsr >= 60.0)
  {
    AdviceParts(dsr, dti, highest, smallest, loanCount, reduction, SeekProfessionalHelp);
    AdviceParts(dsr, dti, highest, smallest, loanCount, reduction, LowerDsrUrgently);
  }

  /** The lower DSR bands and the loan count each bring their own remark. */
  lemma LowerBandAdvice(dsr: real, dti: real, highest: Option<real>, smallest: Option<real>, loanCount: nat, reduction: real)
    ensures var r := Advice(dsr, dti, highest, smallest, loanCount, reduction);
      && (StopNewBorrowing in r <==> 50.0 <= dsr < 60.0)
      && (ApprovalMayBeDifficult in r <==> 40.0 <= dsr < 50.0)
      && (ConsolidateLoans in r <==> loanCount >= 3)
  {
    AdviceParts(dsr, dti, highest, smallest, loanCount, reduction, StopNewBorrowing);
    AdviceParts(dsr, dti, highest, smallest, loanCount, reduction, ApprovalMayBeDifficult);
    AdviceParts(dsr, dti, highest, smallest, loanCount, reduction, ConsolidateLoans);
  }

  /** The DSR band decides the DSR advice, and the loan count the consolidation advice. */
  lemma AdviceByBand(dsr: real, dti: real, highest: Option<real>, smallest: Option<real>, loanCount: nat, reduction: real)
    ensures var r := Advice(dsr, dti, highest, smallest, loanCount, reduction);
      && (SeekProfessionalHelp in r <==> dsr >= 60.0)
      && (LowerDsrUrgently in r <==> dsr >= 60.0)
      && (StopNewBorrowing in r <==> 50.0 <= dsr < 60.0)
      && (ApprovalMayBeDifficult in r <==> 40.0 <= dsr < 50.0)
      && (ConsolidateLoans in r <==> loanCount >= 3)
  {
    CriticalBandAdvice(dsr, dti, highest, smallest, loanCount, reduction);
    LowerBandAdvice(dsr, dti, highest, smallest, loanCount, reduction);
  }

  /** The rate advice appears exactly when a high-rate loan exists, and cites the highest such rate. */
  lemma RateAdviceCited(dsr: real, dti: real, highest: Option<real>, smallest: Option<real>, loanCount: nat, reduction: real)
    ensures var r := Advice(dsr, dti, highest, smallest, loanCount, reduction);
      && (ConsiderLowRateRefinance in r <==> highest.Some?)
      && (forall x :: x in r && x.RepayHighestRateFirst? ==> highest == Some(x.rate))
      && (highest.Some? ==> RepayHighestRateFirst(highest.value) in r)
  {
    var r := Advice(dsr, dti, highest, smallest, loanCount, reduction);
    AdviceParts(dsr, dti, highest, smallest, loanCount, reduction, ConsiderLowRateRefinance);
    if highest.Some? {
      AdviceParts(dsr, dti, highest, smallest, loanCount, reduction, RepayHighestRateFirst(highest.value));
    }
    forall x | x in r && x.RepayHighestRateFirst?
      ensures highest == Some(x.rate)
    {
      AdviceParts(dsr, dti, highest, smallest, loanCount, reduction, x);
    }
  }

  /** The balance advice appears exactly when a small loan exists, and cites the smallest such balance. */
  lemma BalanceAdviceCited(dsr: real, dti: real, highest: Option<real>, smallest: Option<real>, loanCount: nat, reduction: real)
    ensures var r := Advice(dsr, dti, highest, smallest, loanCount, reduction);
      && (forall x :: x in r && x.RepaySmallestLoanFirst? ==> smallest == Some(x.balance))
      && (smallest.Some? ==> RepaySmallestLoanFirst(smallest.value) in r)
  {
    var r := Advice(dsr, dti, highest, smallest, loanCount, reduction);
    if smallest.Some? {
      AdviceParts(dsr, dti, highest, smallest, loanCount, reduction, RepaySmallestLoanFirst(smallest.value));
    }
    forall x | x in r && x.RepaySmallestLoanFirst?
      ensures smallest == Some(x.balance)
    {
      AdviceParts(dsr, dti, highest, smallest, loanCount, reduction, x);
    }
  }

  /** The budget advice appears exactly when the DTI is 30% or more and a reduction is needed, and cites it. */
  lemma BudgetAdviceCited(dsr: real, dti: real, highest: Option<real>, smallest: Option<real>, loanCount: nat, reduction: real)
    ensures var r := Advice(dsr, dti, highest, smallest, loanCount, reduction);
      && (forall x :: x in r && x.ReducePaymentsBy? ==> dti >= 30.0 && reduction > 0.0 && x.amount == reduction)
      && (dti >= 30.0 && reduction > 0.0 ==> ReducePaymentsBy(reduction) in r)
  {
    var r := Advice(dsr, dti, highest, smallest, loanCount, reduction);
    AdviceParts(dsr, dti, highest, smallest, loanCount, reduction, ReducePaymentsBy(reduction));
    forall x | x in r && x.ReducePaymentsBy?
      ensures dti >= 30.0 && reduction > 0.0 && x.amount == reduction
    {
      AdviceParts(dsr, dti, highest, smallest, loanCount, reduction, x);
    }
  }

  /** The rate, balance and budget advice appear exactly when their fact is present, and cite it. */
  lemma AdviceCitesFacts(dsr: real, dti: real, highest: Option<real>, smallest: Option<real>, loanCount: nat, reduction: real)
    ensures var r := Advice(dsr, dti, highest, smallest, loanCount, reduction);
      && (ConsiderLowRateRefinance in r <==> highest.Some?)
      && (forall x :: x in r && x.RepayHighestRateFirst? ==> highest == Some(x.rate))
      && (highest.Some? ==> RepayHighestRateFirst(highest.value) in r)
      && (forall x :: x in r && x.RepaySmallestLoanFirst? ==> smallest == Some(x.balance))
      && (smallest.Some? ==> RepaySmallestLoanFirst(smallest.value) in r)
      && (forall x :: x in r && x.ReducePaymentsBy? ==> dti >= 30.0 && reduction > 0.0 && x.amount == reduction)
      && (dti >= 30.0 && reduction > 0.0 ==> ReducePaymentsBy(reduction) in r)
  {
    RateAdviceCited(dsr, dti, highest, smallest, loanCount, reduction);
    BalanceAdviceCited(dsr, dti, highest, smallest, loanCount, reduction);
    BudgetAdviceCited(dsr, dti, highest, smallest, loanCount, reduction);
  }

  /** The advice list for an assessment. */
  function GenerateRecommendations(dsr: real, dti: real, loans: seq<Loan>, monthlyIncome: real): (r: seq<Recommendation>)
    ensures r != []
  {
    Advice(dsr, dti, HighestHighRate(loans), SmallestSmallBalance(loans), |loans|, ReductionNeeded(loans, monthlyIncome))
  }

  /**
   * The DSR band, a loan at 15% or more, a loan under 5,000,000 and the loan count each
   * decide their own advice; the defaults appear exactly when no rule fires.
   */
  lemma RecommendationsFollowRules(dsr: real, dti: real, loans: seq<Loan>, monthlyIncome: real)
    ensures var r := GenerateRecommendations(dsr, dti, loans, monthlyIncome);
      && (SeekProfessionalHelp in r <==> dsr >= 60.0)
      && (LowerDsrUrgently in r <==> dsr >= 60.0)
      && (StopNewBorrowing in r <==> 50.0 <= dsr < 60.0)
      && (ApprovalMayBeDifficult in r <==> 40.0 <= dsr < 50.0)
      && (ConsolidateLoans in r <==> |loans| >= 3)
      && (ConsiderLowRateRefinance in r <==> exists l :: l in loans && l.interestRate >= HighRate)
      && ((exists x :: x in r && x.RepaySmallestLoanFirst?) <==> exists l :: l in loans && l.balance < SmallBalance)
      && (KeepCurrentCourse in r <==>
            dsr < 40.0 && |loans| < 3 && !(dti >= 30.0 && ReductionNeeded(loans, monthlyIncome) > 0.0)
            && forall l :: l in loans ==> l.interestRate < HighRate && l.balance >= SmallBalance)
  {
    var highest, smallest := HighestHighRate(loans), SmallestSmallBalance(loans);
    var reduction := ReductionNeeded(loans, monthlyIncome);
    HighestHighRateCited(loans);
    SmallestSmallBalanceCited(loans);
    AdviceByBand(dsr, dti, highest, smallest, |loans|, reduction);
    AdviceCitesFacts(dsr, dti, highest, smallest, |loans|, reduction);
  }

  /**
   * The repay-first advice names the highest rate among the loans at 15% or more; the
   * pay-off-small-loans advice names the smallest balance among the loans under 5,000,000;
   * the budget advice cites the reduction that brings loan payments down to 30% of income,
   * and appears exactly when that reduction is positive and the DTI is at least 30%.
   */
  lemma RecommendationsCiteLoans(dsr: real, dti: real, loans: seq<Loan>, monthlyIncome: real)
    ensures forall x :: x in GenerateRecommendations(dsr, dti, loans, monthlyIncome) && x.RepayHighestRateFirst? ==>
              (exists l :: l in loans && l.interestRate >= HighRate && l.interestRate == x.rate)
              && (forall l :: l in loans && l.interestRate >= HighRate ==> l.interestRate <= x.rate)
    ensures forall x :: x in GenerateRecommendations(dsr, dti, loans, monthlyIncome) && x.RepaySmallestLoanFirst? ==>
              (exists l :: l in loans && l.balance < SmallBalance && l.balance == x.balance)
              && (forall l :: l in loans && l.balance < SmallBalance ==> x.balance <= l.balance)
    ensures forall x :: x in GenerateRecommendations(dsr, dti, loans, monthlyIncome) && x.ReducePaymentsBy? ==>
              dti >= 30.0 && x.amount > 0.0 && x.amount == TotalMonthlyPayment(loans) - 0.3 * monthlyIncome
    ensures dti >= 30.0 && ReductionNeeded(loans, monthlyIncome) > 0.0 ==>
              ReducePaymentsBy(ReductionNeeded(loans, monthlyIncome)) in GenerateRecommendations(dsr, dti, loans, monthlyIncome)
  {
    HighestHighRateCited(loans);
    SmallestSmallBalanceCited(loans);
    AdviceCitesFacts(dsr, dti, HighestHighRate(loans), SmallestSmallBalance(loans), |loans|, ReductionNeeded(loans, monthlyIncome));
  }

  // ---------------------------------------------------------------- debt projection

  /** Where the month-by-month payoff loop stops, and whether it stopped because a payment no longer covered the interest. */
  datatype Run = Run(months: nat, interest: real, balance: real, stalled: bool)

  /**
   * The payoff loop from a given month on: each month the interest on the balance is
   * charged and the rest of the payment reduces the balance, until the balance is
   * paid, 600 months have passed, or the payment no longer exceeds the interest.
   */
  function Amortize(balance: real, monthlyRate: real, payment: real, months: nat, interest: real): (r: Run)
    requires months <= MaxMonths
    ensures months <= r.months <= MaxMonths
    ensures !r.stalled && r.months < MaxMonths ==> r.balance <= 0.0
    decreases MaxMonths - months
  {
    if balance <= 0.0 || months >= MaxMonths then Run(months, interest, balance, false)
    else
      var monthInterest := balance * monthlyRate;
      var principal := payment - monthInterest;
      if principal <= 0.0 then Run(months, interest, balance, true)
      else Amortize(balance - principal, monthlyRate, payment, months + 1, interest + monthInterest)
  }

  /** The balance-weighted average annual rate, as a monthly fraction (0 when there is no balance to weight). */
  function MonthlyRate(loans: seq<Loan>): (r: real)
    ensures TotalBalance(loans) != 0.0 ==> r * 1200.0 * TotalBalance(loans) == SumOf(loans, WeightedRateOf)
    ensures TotalBalance(loans) == 0.0 ==> r == 0.0
  {
    var total := TotalBalance(loans);
    // With loans but a zero total the source computes NaN here; the loop then never runs, so 0 is equivalent.
    var avg := if |loans| > 0 && total != 0.0 then SumOf(loans, WeightedRateOf) / total else 0.0;
    avg / 100.0 / 12.0
  }

  /**
   * The projection the source returns: infinite on a stall, else the months and interest,
   * with the saving from paying 20% more. The payoff horizon is capped at 600 months, the
   * saving is never negative and is 0 when the debt cannot be paid off, and with nothing
   * owed the projection is zero months, no interest and no saving.
   */
  function ProjectionOf(loans: seq<Loan>, totalMonthlyPayment: real): (p: Projection)
    ensures p.payoff.FinitePayoff? ==> p.payoff.months <= MaxMonths
    ensures p.potentialSavings >= 0.0
    ensures p.payoff.InfinitePayoff? ==> p.potentialSavings == 0.0
    ensures TotalBalance(loans) <= 0.0 ==> p == Projection(FinitePayoff(0, 0.0), 0.0)
  {
    var rate := MonthlyRate(loans);
    var base := Amortize(TotalBalance(loans), rate, totalMonthlyPayment, 0, 0.0);
    if base.stalled then Projection(InfinitePayoff, 0.0)
    else
      var accelerated := Amortize(TotalBalance(loans), rate, totalMonthlyPayment * 1.2, 0, 0.0);
      var saving := base.interest - accelerated.interest;
      Projection(FinitePayoff(base.months, base.interest), if saving > 0.0 then saving else 0.0)
  }

  /**
   * One payoff loop: charges interest and applies the rest of the payment month by month.
   * A stall (payment no longer above the interest) ends the loop early; the first loop of
   * the projection returns on it, the accelerated one breaks out of the loop.
   */
  method PayOff(balance: real, monthlyRate: real, payment: real) returns (r: Run)
    ensures r == Amortize(balance, monthlyRate, payment, 0, 0.0)
  {
    var remaining := balance;
    var interestPaid := 0.0;
    var months := 0;
    while remaining > 0.0 && months < MaxMonths
      invariant months <= MaxMonths
      invariant Amortize(remaining, monthlyRate, payment, months, interestPaid)
             == Amortize(balance, monthlyRate, payment, 0, 0.0)
      decreases MaxMonths - months
    {
      var interest := remaining * monthlyRate;
      var principal := payment - interest;
      if principal <= 0.0 {
        return Run(months, interestPaid, remaining, true);
      }
      remaining := remaining - principal;
      interestPaid := interestPaid + interest;
      months := months + 1;
    }
    r := Run(months, interestPaid, remaining, false);
  }

  /** The months and interest to pay off all loans at the current payment, and what paying 20% more would save. */
  method CalculateDebtProjection(loans: seq<Loan>, totalMonthlyPayment: real) returns (p: Projection)
    ensures p == ProjectionOf(loans, totalMonthlyPayment)
  {
    var monthlyRate := MonthlyRate(loans);
    var current := PayOff(TotalBalance(loans), monthlyRate, totalMonthlyPayment);
    if current.stalled {
      return Projection(InfinitePayoff, 0.0);
    }
    var accelerated := PayOff(TotalBalance(loans), monthlyRate, totalMonthlyPayment * 1.2);
    var potentialSavings := current.interest - accelerated.interest;
    p := Projection(FinitePayoff(current.months, current.interest), if potentialSavings > 0.0 then potentialSavings else 0.0);
  }

  /**
   * A payment above the first month's interest always pays the debt down: with a
   * non-negative rate the balance only falls, so the interest never catches up.
   */
  lemma {:induction false} PaymentAboveInterestNeverStalls(balance: real, monthlyRate: real, payment: real, months: nat, interest: real)
    requires months <= MaxMonths
    requires monthlyRate >= 0.0
    requires payment > balance * monthlyRate
    ensures !Amortize(balance, monthlyRate, payment, months, interest).stalled
    decreases MaxMonths - months
  {
    if balance > 0.0 && months < MaxMonths {
      var principal := payment - balance * monthlyRate;
      var next := balance - principal;
      assert next < balance;
      assert next * monthlyRate <= balance * monthlyRate by {
        assert (balance - next) * monthlyRate >= 0.0;
      }
      PaymentAboveInterestNeverStalls(next, monthlyRate, payment, months + 1, interest + balance * monthlyRate);
    }
  }

  /** With a non-negative rate the interest accumulated by the loop never falls below where it started. */
  lemma {:induction false} InterestNeverDecreases(balance: real, monthlyRate: real, payment: real, months: nat, interest: real)
    requires months <= MaxMonths
    requires monthlyRate >= 0.0
    ensures Amortize(balance, monthlyRate, payment, months, interest).interest >= interest
    decreases MaxMonths - months
  {
    if balance > 0.0 && months < MaxMonths {
      var principal := payment - balance * monthlyRate;
      if principal > 0.0 {
        assert balance * monthlyRate >= 0.0;
        InterestNeverDecreases(balance - principal, monthlyRate, payment, months + 1, interest + balance * monthlyRate);
      }
    }
  }

  lemma {:induction false} SumOfNonNegative(loans: seq<Loan>, f: Loan -> real)
    requires forall l :: l in loans ==> f(l) >= 0.0
    ensures SumOf(loans, f) >= 0.0
  {
    if loans != [] {
      SumOfNonNegative(loans[1..], f);
    }
  }

  /**
   * For loans with non-negative balances and rates, a monthly payment above the
   * interest on the whole balance gives a finite payoff within 600 months and
   * non-negative total interest.
   */
  lemma PayoffIsFiniteWhenPaymentCoversInterest(loans: seq<Loan>, payment: real)
    requires forall l :: l in loans ==> l.balance >= 0.0 && l.interestRate >= 0.0
    requires payment > TotalBalance(loans) * MonthlyRate(loans)
    ensures ProjectionOf(loans, payment).payoff.FinitePayoff?
    ensures ProjectionOf(loans, payment).payoff.months <= MaxMonths
    ensures ProjectionOf(loans, payment).payoff.totalInterest >= 0.0
  {
    SumOfNonNegative(loans, BalanceOf);
    SumOfNonNegative(loans, WeightedRateOf);
    var rate := MonthlyRate(loans);
    assert rate >= 0.0;
    PaymentAboveInterestNeverStalls(TotalBalance(loans), rate, payment, 0, 0.0);
    InterestNeverDecreases(TotalBalance(loans), rate, payment, 0, 0.0);
  }

  /** A 10,000,000 balance at 20% a year cannot be paid off at 100,000 a month: the first month's interest is about 166,667. */
  lemma NonConvergentExample()
    ensures ProjectionOf([Loan("credit", 10000000.0, 20.0, 100000.0, 120)], 100000.0)
         == Projection(InfinitePayoff, 0.0)
  {
    var loans := [Loan("credit", 10000000.0, 20.0, 100000.0, 120)];
    assert TotalBalance(loans) == 10000000.0;
    assert SumOf(loans, WeightedRateOf) == 200000000.0;
    assert MonthlyRate(loans) == 20.0 / 100.0 / 12.0;
  }

  // ---------------------------------------------------------------- the whole assessment

  method CalculateDSR(data: DSRData) returns (r: DSRResult)
    ensures r.dsr == Dsr(data.monthlyIncome, data.monthlyDebtPayment, data.otherMonthlyObligations)
    ensures r.dti == Dti(data.monthlyIncome, data.monthlyDebtPayment)
    ensures data.monthlyIncome <= 0.0 ==> r.dsr == 0.0 && r.dti == 0.0
    ensures r.riskLevel == DetermineRiskLevel(r.dsr, r.dti)
    ensures r.riskScore == RiskScore(r.dsr, r.dti, data.loans) && r.riskScore <= 100
    ensures r.alerts == GenerateAlerts(r.dsr, r.dti, data.loans) && r.alerts != []
    ensures r.recommendations == GenerateRecommendations(r.dsr, r.dti, data.loans, data.monthlyIncome)
    ensures r.recommendations != []
    ensures r.projection == ProjectionOf(data.loans, data.monthlyDebtPayment)
    ensures r.projection.potentialSavings >= 0.0
  {
    var dsr := Dsr(data.monthlyIncome, data.monthlyDebtPayment, data.otherMonthlyObligations);
    var dti := Dti(data.monthlyIncome, data.monthlyDebtPayment);
    var projection := CalculateDebtProjection(data.loans, data.monthlyDebtPayment);
    r := DSRResult(dsr, dti, DetermineRiskLevel(dsr, dti), RiskScore(dsr, dti, data.loans),
                   GenerateAlerts(dsr, dti, data.loans),
                   GenerateRecommendations(dsr, dti, data.loans, data.monthlyIncome),
                   projection);
  }

  /** An income of 3,000,000 with 1,800,000 of debt payments is a 60% DSR: danger, with a critical DSR alert. */
  lemma DangerExample()
    ensures Dsr(3000000.0, 1800000.0, 0.0) == 60.0
    ensures DetermineRiskLevel(60.0, 60.0) == Danger
    ensures DsrPoints(60.0) == 45.0 && DtiPoints(60.0) == 30.0
    ensures MakeAlert(DsrDanger, 60.0, 60.0, []) in GenerateAlerts(60.0, 60.0, [])
  {
    var ks := AlertKinds(60.0, 60.0, 0, 0);
    assert DsrDanger in ks;
    var i :| 0 <= i < |ks| && ks[i] == DsrDanger;
    assert GenerateAlerts(60.0, 60.0, [])[i] == MakeAlert(DsrDanger, 60.0, 60.0, []);
  }

  // ---------------------------------------------------------------- what-if simulation

  /** The what-if inputs; an absent field, or one equal to 0, leaves the figures unchanged. */
  datatype Scenario = Scenario(
    increaseIncome: Option<real>,
    reduceExpenses: Option<real>,
    refinanceRate: Option<real>,
    extraPayment: Option<real>)

  datatype Improvement = Improvement(currentDSR: real, improvedDSR: real, improvement: real, newRiskLevel: RiskLevel)

  /** JavaScript truthiness of an optional number: present and non-zero. */
  predicate Present(o: Option<real>)
  {
    o.Some? && o.value != 0.0
  }

  /** The unweighted average of the loans' annual rates. */
  function AverageRate(loans: seq<Loan>): real
    requires loans != []
  {
    SumOf(loans, RateOf) / |loans| as real
  }

  /** What the source needs for the refinance step: loans to average over (the caller checks this) and a non-zero average. */
  predicate RefinanceDefined(data: DSRData, s: Scenario)
  {
    Present(s.refinanceRate) ==> data.loans != [] && AverageRate(data.loans) != 0.0
  }

  /** The payment scale factor of the crude refinance approximation. */
  function RefinanceFactor(avgRate: real, newRate: real): (f: real)
    requires avgRate != 0.0
    ensures (f - 0.5) * 2.0 * avgRate == newRate
    ensures newRate == avgRate ==> f == 1.0
    ensures newRate == 0.0 ==> f == 0.5
  {
    DivMul(avgRate, avgRate);
    1.0 - (avgRate - newRate) / avgRate * 0.5
  }

  /** Refinancing to a rate between 0 and the current average scales the payment by a factor between one half and one. */
  lemma RefinanceFactorBounds(avgRate: real, newRate: real)
    requires avgRate > 0.0 && 0.0 <= newRate <= avgRate
    ensures 0.5 <= RefinanceFactor(avgRate, newRate) <= 1.0
    ensures newRate < avgRate ==> RefinanceFactor(avgRate, newRate) < 1.0
  {
    var cut := (avgRate - newRate) / avgRate;
    DivideMonotone(0.0, avgRate - newRate, avgRate);
    DivideMonotone(avgRate - newRate, avgRate, avgRate);
    DivMul(avgRate, avgRate);
    assert avgRate / avgRate == 1.0;
    assert 0.0 <= cut <= 1.0;
    if newRate < avgRate {
      assert cut * avgRate == avgRate - newRate;
      assert cut > 0.0;
    }
  }

  /** A truthy income increase is added to the income; otherwise the income is unchanged. */
  function ImprovedIncome(data: DSRData, s: Scenario): (income: real)
    ensures Present(s.increaseIncome) ==> income - data.monthlyIncome == s.increaseIncome.value
    ensures !Present(s.increaseIncome) ==> income == data.monthlyIncome
  {
    data.monthlyIncome + (if Present(s.increaseIncome) then s.increaseIncome.value else 0.0)
  }

  /** The payment after expense cuts are redirected to debt. */
  function RedirectedPayment(data: DSRData, s: Scenario): real
  {
    data.monthlyDebtPayment + (if Present(s.reduceExpenses) then s.reduceExpenses.value else 0.0)
  }

  /** The payment after the refinance approximation, if a refinance rate is given. */
  function RefinancedPayment(data: DSRData, s: Scenario): real
    requires RefinanceDefined(data, s)
  {
    if Present(s.refinanceRate)
    then RedirectedPayment(data, s) * RefinanceFactor(AverageRate(data.loans), s.refinanceRate.value)
    else RedirectedPayment(data, s)
  }

  /** The new payment: expense cuts redirected to debt, then the refinance factor, then the extra payment. */
  function ImprovedPayment(data: DSRData, s: Scenario): (payment: real)
    requires RefinanceDefined(data, s)
    ensures var added := (if Present(s.reduceExpenses) then s.reduceExpenses.value else 0.0)
                         + (if Present(s.extraPayment) then s.extraPayment.value else 0.0);
      !Present(s.refinanceRate) ==> payment == data.monthlyDebtPayment + added
    ensures Present(s.refinanceRate) && s.refinanceRate.value == AverageRate(data.loans) ==>
      payment == data.monthlyDebtPayment + (if Present(s.reduceExpenses) then s.reduceExpenses.value else 0.0)
                 + (if Present(s.extraPayment) then s.extraPayment.value else 0.0)
    ensures Present(s.refinanceRate) ==>
      payment - (if Present(s.extraPayment) then s.extraPayment.value else 0.0)
      == (data.monthlyDebtPayment + (if Present(s.reduceExpenses) then s.reduceExpenses.value else 0.0))
         * RefinanceFactor(AverageRate(data.loans), s.refinanceRate.value)
  {
    RefinancedPayment(data, s) + (if Present(s.extraPayment) then s.extraPayment.value else 0.0)
  }

  /**
   * A stand-in for a JavaScript number that compares with the risk thresholds 30, 40
   * and 50 as the number does: +Infinity passes every `>=` test, -Infinity and NaN none.
   */
  function ThresholdEquivalent(x: JsNumber): (r: real)
    ensures forall c :: c in {30.0, 40.0, 50.0} ==> (r >= c <==> AtLeast(x, c))
  {
    match x
    case Finite(v) => v
    case PosInfinity => 50.0
    case _ => 0.0
  }

  /** The new risk level exactly as the source computes it: the DTI argument is divided without the zero-income guard. */
  function ImprovedRiskLevelAsWritten(improvedDsr: real, newIncome: real, newPayment: real): (level: RiskLevel)
    ensures newIncome != 0.0 ==> level == DetermineRiskLevel(improvedDsr, newPayment / newIncome * 100.0)
    ensures newIncome == 0.0 && newPayment > 0.0 ==> level == Danger
    ensures newIncome == 0.0 && newPayment <= 0.0 ==> level == DetermineRiskLevel(improvedDsr, 0.0)
  {
    DetermineRiskLevel(improvedDsr, ThresholdEquivalent(Scale(Div(newPayment, newIncome), 100.0)))
  }

  /** The new risk level from the guarded DTI, as `calculateDSR` guards it. */
  function ImprovedRiskLevel(improvedDsr: real, newIncome: real, newPayment: real): (level: RiskLevel)
    ensures newIncome > 0.0 ==> level == ImprovedRiskLevelAsWritten(improvedDsr, newIncome, newPayment)
  {
    DetermineRiskLevel(improvedDsr, Dti(newIncome, newPayment))
  }

  const NoChange: Scenario := Scenario(None, None, None, None)

  /**
   * The source as written: with no income and a positive debt payment, the empty
   * scenario reports an improved DSR of 0 (like the current one) but a Danger level,
   * while the current assessment of the same figures is Safe.
   */
  lemma EmptyScenarioAsWrittenDisagrees()
    ensures Dsr(0.0, 1000000.0, 0.0) == 0.0
    ensures DetermineRiskLevel(Dsr(0.0, 1000000.0, 0.0), Dti(0.0, 1000000.0)) == Safe
    ensures ImprovedRiskLevelAsWritten(Dsr(0.0, 1000000.0, 0.0), 0.0, 1000000.0) == Danger
  {
  }

  /** With the guard, an empty scenario reproduces the current DSR and the current risk level for every input. */
  lemma EmptyScenarioKeepsAssessment(data: DSRData)
    ensures ImprovedIncome(data, NoChange) == data.monthlyIncome
    ensures ImprovedPayment(data, NoChange) == data.monthlyDebtPayment
    ensures ImprovedRiskLevel(Dsr(ImprovedIncome(data, NoChange), ImprovedPayment(data, NoChange), data.otherMonthlyObligations),
                              ImprovedIncome(data, NoChange), ImprovedPayment(data, NoChange))
         == DetermineRiskLevel(Dsr(data.monthlyIncome, data.monthlyDebtPayment, data.otherMonthlyObligations),
                               Dti(data.monthlyIncome, data.monthlyDebtPayment))
  {
  }

  /** Raising a positive income, with nothing else changed, never raises DSR when obligations are non-negative. */
  lemma IncomeIncreaseNeverRaisesDsr(data: DSRData, raise: real)
    requires data.monthlyIncome > 0.0 && raise > 0.0
    requires data.monthlyDebtPayment + data.otherMonthlyObligations >= 0.0
    ensures Dsr(ImprovedIncome(data, NoChange.(increaseIncome := Some(raise))), data.monthlyDebtPayment, data.otherMonthlyObligations)
         <= Dsr(data.monthlyIncome, data.monthlyDebtPayment, data.otherMonthlyObligations)
  {
    var o := data.monthlyDebtPayment + data.otherMonthlyObligations;
    var i := data.monthlyIncome;
    assert o / (i + raise) <= o / i by {
      assert o / i - o / (i + raise) == o * raise / (i * (i + raise));
      assert i * (i + raise) > 0.0;
      assert o * raise >= 0.0;
    }
  }

  method SimulateDSRImprovement(currentData: DSRData, scenarios: Scenario) returns (r: Improvement)
    requires RefinanceDefined(currentData, scenarios)
    ensures r.currentDSR == Dsr(currentData.monthlyIncome, currentData.monthlyDebtPayment, currentData.otherMonthlyObligations)
    ensures r.improvedDSR == Dsr(ImprovedIncome(currentData, scenarios), ImprovedPayment(currentData, scenarios), currentData.otherMonthlyObligations)
    ensures r.improvement == r.currentDSR - r.improvedDSR
    ensures r.newRiskLevel == ImprovedRiskLevel(r.improvedDSR, ImprovedIncome(currentData, scenarios), ImprovedPayment(currentData, scenarios))
    ensures ImprovedIncome(currentData, scenarios) > 0.0 ==>
      r.newRiskLevel == ImprovedRiskLevelAsWritten(r.improvedDSR, ImprovedIncome(currentData, scenarios), ImprovedPayment(currentData, scenarios))
  {
    // Only the DSR of the current assessment is used, so only that part of it is computed.
    var currentDSR := Dsr(currentData.monthlyIncome, currentData.monthlyDebtPayment, currentData.otherMonthlyObligations);

    var newMonthlyIncome := currentData.monthlyIncome;
    var newMonthlyPayment := currentData.monthlyDebtPayment;

    if Present(scenarios.increaseIncome) {
      newMonthlyIncome := newMonthlyIncome + scenarios.increaseIncome.value;
    }
    assert newMonthlyIncome == ImprovedIncome(currentData, scenarios);
    if Present(scenarios.reduceExpenses) {
      newMonthlyPayment := newMonthlyPayment + scenarios.reduceExpenses.value;
    }
    assert newMonthlyPayment == RedirectedPayment(currentData, scenarios);
    if Present(scenarios.refinanceRate) {
      var avgCurrentRate := AverageRate(currentData.loans);
      var factor := RefinanceFactor(avgCurrentRate, scenarios.refinanceRate.value);
      assert RefinancedPayment(currentData, scenarios) == newMonthlyPayment * factor;
      newMonthlyPayment := newMonthlyPayment * factor;
    }
    assert newMonthlyPayment == RefinancedPayment(currentData, scenarios);
    if Present(scenarios.extraPayment) {
      newMonthlyPayment := newMonthlyPayment + scenarios.extraPayment.value;
    }
    assert newMonthlyPayment == ImprovedPayment(currentData, scenarios);

    var improvedDSR := Dsr(newMonthlyIncome, newMonthlyPayment, currentData.otherMonthlyObligations);
    var improvement := currentDSR - improvedDSR;
    var newRiskLevel := ImprovedRiskLevel(improvedDSR, newMonthlyIncome, newMonthlyPayment);
    r := Improvement(currentDSR, improvedDSR, improvement, newRiskLevel);
  }
}

=== FILE: health_score.dfy ===
/**
 * The financial health score: six sub-scores out of 100, each a threshold table over one
 * input record, a weighted total, a letter grade, and rule-based insights and
 * recommendations. Messages are modelled as tags carrying the figures they cite.
 */
module FinancialHealth {
  import opened JsMath

  /** The input record. `age`, `investmentAssets`, the debt split and `hasEmergencyFund` are never read. */
  datatype FinancialData = FinancialData(
    totalAssets: real,
    liquidAssets: real,
    investmentAssets: real,
    totalLiabilities: real,
    shortTermDebt: real,
    longTermDebt: real,
    monthlyIncome: real,
    monthlyExpenses: real,
    monthlyDebtPayment: real,
    age: real,
    hasEmergencyFund: bool,
    monthsOfEmergencyFund: real)

  /** The six sub-scores, each out of 100. */
  datatype Components = Components(
    assetHealth: int,
    debtManagement: int,
    cashFlowHealth: int,
    savingsRate: int,
    emergencyFund: int,
    debtToIncome: int)

  datatype Grade = APlus | A | BPlus | B | CPlus | C | D | F

  datatype Insight =
    | ScoreIs(score: real)
    | Excellent
    | Good
    | NeedsImprovement
    | NetWorthIs(amount: real)
    | NegativeNetWorth
    | HighSavingsRate(rate: JsNumber)
    | MonthlyDeficit

  datatype HealthAdvice =
    | BuildEmergencyFund(months: real)
    | ReduceDebt
    | RaiseSavingsRate
    | RestructureDebt
    | ControlSpending
    | ConsiderLongTermInvesting

  datatype HealthScoreResult = HealthScoreResult(
    totalScore: real,
    grade: Grade,
    components: Components,
    insights: seq<Insight>,
    recommendations: seq<HealthAdvice>)

  const AssetWeight: real := 0.2
  const DebtWeight: real := 0.2
  const CashFlowWeight: real := 0.15
  const SavingsWeight: real := 0.15
  const EmergencyWeight: real := 0.15
  const DtiWeight: real := 0.15

  // ---------------------------------------------------------------- 1. asset health

  function NetWorth(data: FinancialData): real
  {
    data.totalAssets - data.totalLiabilities
  }

  /** Liquid assets over total assets, 0 when there are no positive assets. */
  function LiquidityRatio(data: FinancialData): (r: real)
    ensures data.totalAssets <= 0.0 ==> r == 0.0
    ensures data.totalAssets > 0.0 ==> r * data.totalAssets == data.liquidAssets
  {
    if data.totalAssets > 0.0 then data.liquidAssets / data.totalAssets else 0.0
  }

  /** The net-worth size bonus; the thresholds are strict. */
  function SizePoints(netWorth: real): int
  {
    if netWorth > 100000000.0 then 30
    else if netWorth > 50000000.0 then 20
    else if netWorth > 10000000.0 then 10
    else 0
  }

  /** The liquidity bonus; the thresholds are inclusive. */
  function LiquidityPoints(ratio: real): int
  {
    if ratio >= 0.3 then 20
    else if ratio >= 0.2 then 15
    else if ratio >= 0.1 then 10
    else 5
  }

  /**
   * 50 points for a positive net worth plus its size bonus (nothing for a net worth
   * that is not positive), plus the liquidity bonus, capped at 100.
   */
  function AssetHealth(data: FinancialData): (s: int)
    ensures 0 <= s <= 100 && s % 5 == 0
    ensures NetWorth(data) <= 0.0 ==> s in {5, 10, 15, 20}
    ensures NetWorth(data) > 0.0 ==> 55 <= s
  {
    var base := if NetWorth(data) > 0.0 then 50 + SizePoints(NetWorth(data)) else 0;
    Min(base + LiquidityPoints(LiquidityRatio(data)), 100)
  }

  /** The cap at 100 never changes the asset score: the largest sum of its parts is 50 + 30 + 20. */
  lemma AssetCapNeverBinds(data: FinancialData)
    ensures NetWorth(data) > 0.0 ==>
              AssetHealth(data) == 50 + SizePoints(NetWorth(data)) + LiquidityPoints(LiquidityRatio(data))
    ensures NetWorth(data) <= 0.0 ==> AssetHealth(data) == LiquidityPoints(LiquidityRatio(data))
  {
  }

  /** More net worth or a higher liquidity ratio never lowers the asset score. */
  lemma AssetHealthMonotone(d1: FinancialData, d2: FinancialData)
    requires NetWorth(d1) <= NetWorth(d2)
    requires LiquidityRatio(d1) <= LiquidityRatio(d2)
    ensures AssetHealth(d1) <= AssetHealth(d2)
  {
    AssetCapNeverBinds(d1);
    AssetCapNeverBinds(d2);
  }

  // ---------------------------------------------------------------- 2. debt management

  /** Liabilities over assets; 1 when there are no positive assets. */
  function DebtRatio(data: FinancialData): (r: real)
    ensures data.totalAssets <= 0.0 ==> r == 1.0
    ensures data.totalAssets > 0.0 ==> r * data.totalAssets == data.totalLiabilities
  {
    if data.totalAssets > 0.0 then data.totalLiabilities / data.totalAssets else 1.0
  }

  function DebtRatioPoints(ratio: real): int
  {
    if ratio <= 0.3 then 100
    else if ratio <= 0.5 then 80
    else if ratio <= 0.7 then 60
    else if ratio <= 0.9 then 40
    else 20
  }

  /** 100 with no liabilities; otherwise the debt-ratio band. */
  function DebtManagement(data: FinancialData): (s: int)
    ensures 20 <= s <= 100 && s % 20 == 0
    ensures data.totalLiabilities == 0.0 ==> s == 100
  {
    if data.totalLiabilities == 0.0 then 100 else DebtRatioPoints(DebtRatio(data))
  }

  /** A higher debt ratio never raises the debt score. */
  lemma DebtRatioPointsMonotone(r1: real, r2: real)
    requires r1 <= r2
    ensures DebtRatioPoints(r2) <= DebtRatioPoints(r1)
  {
  }

  // ---------------------------------------------------------------- 3. cash flow

  /** 100 for a surplus, 50 for a balanced month, 0 for a deficit. */
  function CashFlowHealth(data: FinancialData): (s: int)
    ensures s == 100 <==> data.monthlyIncome > data.monthlyExpenses
    ensures s == 50 <==> data.monthlyIncome == data.monthlyExpenses
    ensures s == 0 <==> data.monthlyIncome < data.monthlyExpenses
  {
    var monthlySavings := data.monthlyIncome - data.monthlyExpenses;
    if monthlySavings > 0.0 then 100
    else if monthlySavings == 0.0 then 50
    else 0
  }

  // ---------------------------------------------------------------- 4. savings rate

  function SavingsRatePoints(rate: real): int
  {
    if rate >= 30.0 then 100
    else if rate >= 20.0 then 80
    else if rate >= 10.0 then 60
    else if rate >= 5.0 then 40
    else if rate >= 0.0 then 20
    else 0
  }

  /** 0 with no income; otherwise the band of the savings rate in percent. */
  function SavingsRate(data: FinancialData): (s: int)
    ensures 0 <= s <= 100 && s % 10 == 0
    ensures data.monthlyIncome == 0.0 ==> s == 0
  {
    if data.monthlyIncome == 0.0 then 0
    else SavingsRatePoints((data.monthlyIncome - data.monthlyExpenses) / data.monthlyIncome * 100.0)
  }

  /** A higher savings rate never lowers the savings score. */
  lemma SavingsRatePointsMonotone(r1: real, r2: real)
    requires r1 <= r2
    ensures SavingsRatePoints(r1) <= SavingsRatePoints(r2)
  {
  }

  // ---------------------------------------------------------------- 5. emergency fund

  /** 100 for six months or more of expenses set aside, 70 for three, 40 for one, else 0. */
  function EmergencyFund(data: FinancialData): (s: int)
    ensures 0 <= s <= 100 && s % 10 == 0
    ensures s >= 70 <==> data.monthsOfEmergencyFund >= 3.0
  {
    var months := data.monthsOfEmergencyFund;
    if months >= 6.0 then 100
    else if months >= 3.0 then 70
    else if months >= 1.0 then 40
    else 0
  }

  /** More months set aside never lower the emergency-fund score. */
  lemma EmergencyFundMonotone(d1: FinancialData, d2: FinancialData)
    requires d1.monthsOfEmergencyFund <= d2.monthsOfEmergencyFund
    ensures EmergencyFund(d1) <= EmergencyFund(d2)
  {
  }

  // ---------------------------------------------------------------- 6. debt to income

  /** 100 with no debt payment at all, then 90/70/50/30 up to 20/30/40/50 percent, else 0. */
  function DtiPoints(dti: real): int
  {
    if dti == 0.0 then 100
    else if dti <= 20.0 then 90
    else if dti <= 30.0 then 70
    else if dti <= 40.0 then 50
    else if dti <= 50.0 then 30
    else 0
  }

  /** 0 with no income; otherwise the band of debt payments over income in percent. */
  function DebtToIncome(data: FinancialData): (s: int)
    ensures 0 <= s <= 100 && s % 10 == 0
    ensures data.monthlyIncome == 0.0 ==> s == 0
    ensures data.monthlyIncome != 0.0 && data.monthlyDebtPayment == 0.0 ==> s == 100
  {
    if data.monthlyIncome == 0.0 then 0
    else DtiPoints(data.monthlyDebtPayment / data.monthlyIncome * 100.0)
  }

  /** For a positive DTI, a higher DTI never raises the score; a DTI of exactly 0 scores highest. */
  lemma DtiPointsMonotone(d1: real, d2: real)
    requires 0.0 < d1 <= d2
    ensures DtiPoints(d2) <= DtiPoints(d1) < DtiPoints(0.0)
  {
  }

  // ---------------------------------------------------------------- total and grade

  function ComponentsOf(data: FinancialData): Components
  {
    Components(AssetHealth(data), DebtManagement(data), CashFlowHealth(data),
               SavingsRate(data), EmergencyFund(data), DebtToIncome(data))
  }

  /** Every sub-score is out of 100 and a multiple of 10, except the asset score, a multiple of 5. */
  predicate InRange(c: Components)
  {
    && 0 <= c.assetHealth <= 100 && c.assetHealth % 5 == 0
    && 0 <= c.debtManagement <= 100 && c.debtManagement % 10 == 0
    && 0 <= c.cashFlowHealth <= 100 && c.cashFlowHealth % 10 == 0
    && 0 <= c.savingsRate <= 100 && c.savingsRate % 10 == 0
    && 0 <= c.emergencyFund <= 100 && c.emergencyFund % 10 == 0
    && 0 <= c.debtToIncome <= 100 && c.debtToIncome % 10 == 0
  }

  lemma ComponentsInRange(data: FinancialData)
    ensures InRange(ComponentsOf(data))
  {
  }

  /**
   * The weighted total. The weights sum to 1: six equal sub-scores give that score back,
   * so sub-scores out of 100 give a total out of 100.
   */
  function TotalScore(c: Components): (t: real)
    ensures InRange(c) ==> 0.0 <= t <= 100.0
    ensures forall s: int :: c == Components(s, s, s, s, s, s) ==> t == s as real
  {
    c.assetHealth as real * AssetWeight
    + c.debtManagement as real * DebtWeight
    + c.cashFlowHealth as real * CashFlowWeight
    + c.savingsRate as real * SavingsWeight
    + c.emergencyFund as real * EmergencyWeight
    + c.debtToIncome as real * DtiWeight
  }

  /** A better sub-score never lowers the total. */
  lemma TotalScoreMonotone(c1: Components, c2: Components)
    requires c1.assetHealth <= c2.assetHealth && c1.debtManagement <= c2.debtManagement
    requires c1.cashFlowHealth <= c2.cashFlowHealth && c1.savingsRate <= c2.savingsRate
    requires c1.emergencyFund <= c2.emergencyFund && c1.debtToIncome <= c2.debtToIncome
    ensures TotalScore(c1) <= TotalScore(c2)
  {
  }

  /**
   * The total is always a multiple of 0.5, since the 0.2-weighted scores are multiples of
   * 5 and the 0.15-weighted ones multiples of 10; so rounding it to one decimal changes
   * nothing, and the grade computed from the raw total is the grade of the reported one.
   */
  lemma RoundingIsExact(c: Components)
    requires InRange(c)
    ensures RoundToTenth(TotalScore(c)) == TotalScore(c)
  {
    var tenths := TotalTenths(c);
    var t := TotalScore(c);
    assert t * 10.0 == tenths as real;
    assert Round(tenths as real) == tenths;
    assert Round(t * 10.0) as real / 10.0 == t;
  }

  /** Ten times the total is a whole number. */
  lemma TotalTenths(c: Components) returns (tenths: int)
    requires InRange(c)
    ensures TotalScore(c) * 10.0 == tenths as real
  {
    var a, b := c.assetHealth / 5, c.debtManagement / 10;
    var rest := (c.cashFlowHealth + c.savingsRate + c.emergencyFund + c.debtToIncome) / 10;
    assert c.assetHealth == 5 * a && c.debtManagement == 10 * b;
    assert c.cashFlowHealth + c.savingsRate + c.emergencyFund + c.debtToIncome == 10 * rest;
    tenths := 10 * a + 20 * b + 15 * rest;
    assert TotalScore(c) == c.assetHealth as real * 0.2 + c.debtManagement as real * 0.2
      + (c.cashFlowHealth + c.savingsRate + c.emergencyFund + c.debtToIncome) as real * 0.15;
  }

  /** Letter grade by inclusive lower bounds: each grade covers exactly its own band of scores. */
  function CalculateGrade(score: real): (g: Grade)
    ensures g == APlus <==> score >= 95.0
    ensures g == A <==> 90.0 <= score < 95.0
    ensures g == BPlus <==> 85.0 <= score < 90.0
    ensures g == B <==> 80.0 <= score < 85.0
    ensures g == CPlus <==> 75.0 <= score < 80.0
    ensures g == C <==> 70.0 <= score < 75.0
    ensures g == D <==> 60.0 <= score < 70.0
    ensures g == F <==> score < 60.0
  {
    if score >= 95.0 then APlus
    else if score >= 90.0 then A
    else if score >= 85.0 then BPlus
    else if score >= 80.0 then B
    else if score >= 75.0 then CPlus
    else if score >= 70.0 then C
    else if score >= 60.0 then D
    else F
  }

  function GradeRank(g: Grade): nat
  {
    match g
    case F => 0
    case D => 1
    case C => 2
    case CPlus => 3
    case B => 4
    case BPlus => 5
    case A => 6
    case APlus => 7
  }

  /** A higher score never gets a lower grade. */
  lemma GradeMonotone(s1: real, s2: real)
    requires s1 <= s2
    ensures GradeRank(CalculateGrade(s1)) <= GradeRank(CalculateGrade(s2))
  {
  }

  // ---------------------------------------------------------------- insights

  /**
   * The savings rate as the insights compute it: the division is not guarded, so with no
   * income a deficit is -Infinity, a surplus +Infinity and a balanced month NaN.
   */
  function InsightSavingsRate(data: FinancialData): (r: JsNumber)
    ensures data.monthlyIncome != 0.0 ==> r.Finite?
  {
    Scale(Div(data.monthlyIncome - data.monthlyExpenses, data.monthlyIncome), 100.0)
  }

  /** The score sentence, its band, the net-worth sentence, and a savings-rate remark when one applies. */
  function GenerateInsights(data: FinancialData, totalScore: real): (r: seq<Insight>)
    ensures 3 <= |r| <= 4
    ensures r[0] == ScoreIs(totalScore)
    ensures r[1] == (if totalScore >= 90.0 then Excellent else if totalScore >= 70.0 then Good else NeedsImprovement)
    ensures r[2] == NetWorthIs(NetWorth(data)) <==> NetWorth(data) > 0.0
    ensures r[2] == NegativeNetWorth <==> NetWorth(data) <= 0.0
    ensures |r| == 4 <==> AtLeast(InsightSavingsRate(data), 20.0) || Below(InsightSavingsRate(data), 0.0)
    ensures |r| == 4 ==>
      r[3] == (if AtLeast(InsightSavingsRate(data), 20.0) then HighSavingsRate(InsightSavingsRate(data)) else MonthlyDeficit)
  {
    var netWorth := NetWorth(data);
    var savingsRate := InsightSavingsRate(data);
    var band := if totalScore >= 90.0 then Excellent else if totalScore >= 70.0 then Good else NeedsImprovement;
    var worth := if netWorth > 0.0 then NetWorthIs(netWorth) else NegativeNetWorth;
    var savings :=
      if AtLeast(savingsRate, 20.0) then [HighSavingsRate(savingsRate)]
      else if Below(savingsRate, 0.0) then [MonthlyDeficit]
      else [];
    [ScoreIs(totalScore), band, worth] + savings
  }

  /** With no income, any spending is reported as a monthly deficit, and no spending gives no remark. */
  lemma NoIncomeInsights(data: FinancialData, totalScore: real)
    requires data.monthlyIncome == 0.0
    ensures data.monthlyExpenses > 0.0 ==> GenerateInsights(data, totalScore)[3..] == [MonthlyDeficit]
    ensures data.monthlyExpenses == 0.0 ==> |GenerateInsights(data, totalScore)| == 3
  {
  }

  // ---------------------------------------------------------------- recommendations

  /** True when at least one recommendation rule fires. */
  predicate AnyHealthRule(c: Components)
  {
    c.emergencyFund < 70 || c.debtManagement < 60 || c.savingsRate < 60 || c.debtToIncome < 50 || c.cashFlowHealth < 50
  }

  function AdviceRank(a: HealthAdvice): nat
  {
    match a
    case BuildEmergencyFund(_) => 0
    case ReduceDebt => 1
    case RaiseSavingsRate => 2
    case RestructureDebt => 3
    case ControlSpending => 4
    case ConsiderLongTermInvesting => 5
  }

  /** Whether rule `i` fires: 0 emergency fund, 1 debt, 2 savings, 3 DTI, 4 cash flow. */
  function RuleFires(c: Components, i: nat): bool
    requires i < 5
  {
    if i == 0 then c.emergencyFund < 70
    else if i == 1 then c.debtManagement < 60
    else if i == 2 then c.savingsRate < 60
    else if i == 3 then c.debtToIncome < 50
    else c.cashFlowHealth < 50
  }

  /** The advice rule `i` gives; its rank is its position among the rules. */
  function RuleAdviceAt(months: real, i: nat): (a: HealthAdvice)
    requires i < 5
    ensures AdviceRank(a) == i
  {
    if i == 0 then BuildEmergencyFund(months)
    else if i == 1 then ReduceDebt
    else if i == 2 then RaiseSavingsRate
    else if i == 3 then RestructureDebt
    else ControlSpending
  }

  /** The advice a rule adds when it fires: `advice` alone, or nothing. */
  function Fired(fires: bool, advice: HealthAdvice): seq<HealthAdvice>
  {
    if fires then [advice] else []
  }

  /** The advice of the first `n` rules, appended in the rules' order. */
  function RulesUpTo(months: real, c: Components, n: nat): seq<HealthAdvice>
    requires n <= 5
  {
    if n == 0 then [] else RulesUpTo(months, c, n - 1) + Fired(RuleFires(c, n - 1), RuleAdviceAt(months, n - 1))
  }

  /** Advice is among the first `n` rules' output exactly when its own rule is one of them and fires. */
  lemma {:induction false} RulesUpToContents(months: real, c: Components, n: nat, x: HealthAdvice)
    requires n <= 5
    ensures x in RulesUpTo(months, c, n) <==>
      AdviceRank(x) < n && RuleFires(c, AdviceRank(x)) && x == RuleAdviceAt(months, AdviceRank(x))
  {
    if n > 0 {
      RulesUpToContents(months, c, n - 1, x);
      var f := Fired(RuleFires(c, n - 1), RuleAdviceAt(months, n - 1));
      assert x in RulesUpTo(months, c, n - 1) + f <==> x in RulesUpTo(months, c, n - 1) || x in f;
    }
  }

  /** When none of the first `n` rules fires they give no advice. */
  lemma {:induction false} RulesUpToEmpty(months: real, c: Components, n: nat)
    requires n <= 5
    ensures (forall i :: 0 <= i < n ==> !RuleFires(c, i)) ==> RulesUpTo(months, c, n) == []
  {
    if n > 0 {
      RulesUpToEmpty(months, c, n - 1);
    }
  }

  /** The rules in their fixed order: emergency fund, debt, savings, DTI, cash flow; the generic remark when none fires. */
  function GenerateRecommendations(data: FinancialData, c: Components): (r: seq<HealthAdvice>)
    ensures r != []
    ensures ConsiderLongTermInvesting in r <==> !AnyHealthRule(c)
    ensures !AnyHealthRule(c) ==> r == [ConsiderLongTermInvesting]
    ensures BuildEmergencyFund(data.monthsOfEmergencyFund) in r <==> c.emergencyFund < 70
    ensures ReduceDebt in r <==> c.debtManagement < 60
    ensures RaiseSavingsRate in r <==> c.savingsRate < 60
    ensures RestructureDebt in r <==> c.debtToIncome < 50
    ensures ControlSpending in r <==> c.cashFlowHealth < 50
  {
    var found := RulesUpTo(data.monthsOfEmergencyFund, c, 5);
    RulesUpToContents(data.monthsOfEmergencyFund, c, 5, ConsiderLongTermInvesting);
    RulesUpToContents(data.monthsOfEmergencyFund, c, 5, BuildEmergencyFund(data.monthsOfEmergencyFund));
    RulesUpToContents(data.monthsOfEmergencyFund, c, 5, ReduceDebt);
    RulesUpToContents(data.monthsOfEmergencyFund, c, 5, RaiseSavingsRate);
    RulesUpToContents(data.monthsOfEmergencyFund, c, 5, RestructureDebt);
    RulesUpToContents(data.monthsOfEmergencyFund, c, 5, ControlSpending);
    RulesUpToEmpty(data.monthsOfEmergencyFund, c, 5);
    if found == [] then [ConsiderLongTermInvesting] else found
  }

  predicate InRuleOrder(r: seq<HealthAdvice>)
  {
    forall i, j :: 0 <= i < j < |r| ==> AdviceRank(r[i]) < AdviceRank(r[j])
  }

  predicate RanksBelow(a: seq<HealthAdvice>, k: nat)
  {
    forall i :: 0 <= i < |a| ==> AdviceRank(a[i]) < k
  }

  /** The first `n` rules' advice is in rule order and of rank below `n`. */
  lemma {:induction false} RulesUpToInOrder(months: real, c: Components, n: nat)
    requires n <= 5
    ensures InRuleOrder(RulesUpTo(months, c, n)) && RanksBelow(RulesUpTo(months, c, n), n)
  {
    if n > 0 {
      RulesUpToInOrder(months, c, n - 1);
      var a := RulesUpTo(months, c, n - 1);
      var advice := RuleAdviceAt(months, n - 1);
      var b := Fired(RuleFires(c, n - 1), advice);
      forall i, j | 0 <= i < j < |a + b|
        ensures AdviceRank((a + b)[i]) < AdviceRank((a + b)[j])
      {
        if j < |a| {
          assert (a + b)[i] == a[i] && (a + b)[j] == a[j];
        } else {
          assert (a + b)[i] == a[i] && (a + b)[j] == advice;
        }
      }
      forall i | 0 <= i < |a + b|
        ensures AdviceRank((a + b)[i]) < n
      {
        if i < |a| {
          assert (a + b)[i] == a[i];
        }
      }
    }
  }

  /** Each rule adds at most one recommendation, and they come in the rules' order. */
  lemma RecommendationsInRuleOrder(data: FinancialData, c: Components)
    ensures InRuleOrder(GenerateRecommendations(data, c))
  {
    RulesUpToInOrder(data.monthsOfEmergencyFund, c, 5);
  }

  // ---------------------------------------------------------------- the whole score

  function CalculateFinancialHealthScore(data: FinancialData): (r: HealthScoreResult)
    ensures 0.0 <= r.totalScore <= 100.0
    ensures r.totalScore == TotalScore(ComponentsOf(data))
    ensures r.grade == CalculateGrade(r.totalScore)
    ensures r.insights != [] && r.insights[0] == ScoreIs(TotalScore(r.components))
    ensures r.recommendations != []
    ensures r.components == ComponentsOf(data)
    ensures r.insights == GenerateInsights(data, TotalScore(ComponentsOf(data)))
    ensures r.recommendations == GenerateRecommendations(data, ComponentsOf(data))
  {
    var components := ComponentsOf(data);
    var total := TotalScore(components);
    ComponentsInRange(data);
    RoundingIsExact(components);
    HealthScoreResult(RoundToTenth(total), CalculateGrade(total), components,
                      GenerateInsights(data, total), GenerateRecommendations(data, components))
  }

  /** The score reads neither the emergency-fund flag, nor age, nor the investment and debt breakdowns. */
  lemma UnreadFieldsIgnored(d1: FinancialData, d2: FinancialData)
    requires d1.totalAssets == d2.totalAssets && d1.liquidAssets == d2.liquidAssets
    requires d1.totalLiabilities == d2.totalLiabilities
    requires d1.monthlyIncome == d2.monthlyIncome && d1.monthlyExpenses == d2.monthlyExpenses
    requires d1.monthlyDebtPayment == d2.monthlyDebtPayment
    requires d1.monthsOfEmergencyFund == d2.monthsOfEmergencyFund
    ensures CalculateFinancialHealthScore(d1) == CalculateFinancialHealthScore(d2)
  {
    assert ComponentsOf(d1) == ComponentsOf(d2);
    assert GenerateInsights(d1, TotalScore(ComponentsOf(d1))) == GenerateInsights(d2, TotalScore(ComponentsOf(d1)));
  }

  /**
   * A debt-free household with 200,000,000 in assets, 30% of them liquid, saving half of a
   * 5,000,000 income and holding six months of reserves scores 100 on every component: A+.
   */
  lemma ExemplaryHousehold()
    ensures var d := FinancialData(200000000.0, 60000000.0, 0.0, 0.0, 0.0, 0.0,
                                   5000000.0, 2500000.0, 0.0, 40.0, true, 6.0);
      && ComponentsOf(d) == Components(100, 100, 100, 100, 100, 100)
      && CalculateFinancialHealthScore(d).totalScore == 100.0
      && CalculateFinancialHealthScore(d).grade == APlus
      && CalculateFinancialHealthScore(d).recommendations == [ConsiderLongTermInvesting]
  {
    var d := FinancialData(200000000.0, 60000000.0, 0.0, 0.0, 0.0, 0.0,
                           5000000.0, 2500000.0, 0.0, 40.0, true, 6.0);
    assert LiquidityRatio(d) == 0.3;
    assert SavingsRate(d) == 100;
  }
}

=== FILE: js_math.dfy ===
/**
 * The few pieces of JavaScript number semantics the financial engine relies on:
 * optional values, division that may produce an infinity or NaN, and `Math.round`.
 * Money is modelled as `real`; rounding error of IEEE doubles is not modelled.
 */
module JsMath {

  /** An optional value (a field that may be `undefined`). */
  datatype Option<T> = None | Some(value: T)

  /** A JavaScript number as far as the engine needs it: finite, one of the infinities, or NaN. */
  datatype JsNumber = Finite(value: real) | PosInfinity | NegInfinity | NaN

  /** JavaScript `a / b` for finite operands: a zero divisor gives an infinity or NaN. */
  function Div(a: real, b: real): (r: JsNumber)
    ensures r.Finite? <==> b != 0.0
    ensures r.Finite? ==> r.value * b == a
    ensures r == PosInfinity <==> b == 0.0 && a > 0.0
    ensures r == NaN <==> b == 0.0 && a == 0.0
  {
    if b != 0.0 then Finite(a / b)
    else if a > 0.0 then PosInfinity
    else if a < 0.0 then NegInfinity
    else NaN
  }

  /** JavaScript `x * c` for a positive constant `c`. */
  function Scale(x: JsNumber, c: real): (r: JsNumber)
    requires c > 0.0
    ensures r.Finite? <==> x.Finite?
    ensures !r.Finite? ==> r == x
  {
    match x
    case Finite(v) => Finite(v * c)
    case _ => x
  }

  /** JavaScript `x >= c`: false for NaN, true for +Infinity, false for -Infinity. */
  predicate AtLeast(x: JsNumber, c: real)
  {
    match x
    case Finite(v) => v >= c
    case PosInfinity => true
    case _ => false
  }

  /** JavaScript `x < c`: false for NaN, false for +Infinity, true for -Infinity. */
  predicate Below(x: JsNumber, c: real)
  {
    match x
    case Finite(v) => v < c
    case NegInfinity => true
    case _ => false
  }

  /** `Math.round(x)`: the nearest integer, halves rounded toward +infinity. */
  function Round(x: real): (r: int)
    ensures x - 0.5 < r as real <= x + 0.5
  {
    (x + 0.5).Floor
  }

  /** `Math.round(x * 10) / 10`: `x` rounded to one decimal. */
  function RoundToTenth(x: real): (r: real)
    ensures x - 0.05 < r <= x + 0.05
    ensures (r * 10.0).Floor as real == r * 10.0
  {
    Round(x * 10.0) as real / 10.0
  }

  /** Dividing by a non-zero number and multiplying back gives the dividend. */
  lemma DivMul(x: real, d: real)
    requires d != 0.0
    ensures x / d * d == x
  {
  }

  /** Dividing by a positive number keeps the order. */
  lemma DivideMonotone(a: real, b: real, d: real)
    requires a <= b && d > 0.0
    ensures a / d <= b / d
  {
    assert b / d - a / d == (b - a) / d;
  }

  function Min(a: int, b: int): (r: int)
    ensures r <= a && r <= b && (r == a || r == b)
  {
    if a <= b then a else b
  }
}

=== FILE: monte_carlo.dfy ===
/**
 * The Monte Carlo net-worth engine. The random source is an input: every normal draw
 * `randomNormal(mean, stdDev)` is `z * stdDev + mean` for a standard normal deviate `z`,
 * and the deviates for each simulated year of each run are given as `Deviates`.
 * What remains is deterministic: the yearly recurrence, nearest-rank percentiles over
 * sorted columns, the final-year statistics, and the scenario configurations.
 */
module MonteCarlo {
  import opened JsMath
  import opened Sorting

  /** Mean and standard deviation of a normally distributed rate, in percent per year. */
  datatype Rate = Rate(mean: real, stdDev: real)

  datatype EventType = ExpenseEvent | IncomeEvent

  /** A one-off life event in a given simulated year (its description is not modelled). */
  datatype LifeEvent = LifeEvent(year: int, eventType: EventType, amount: real)

  datatype Config = Config(
    simulationYears: nat,
    numSimulations: nat,
    currentNetWorth: real,
    monthlyIncome: real,
    monthlyExpenses: real,
    inflationRate: Rate,
    incomeGrowthRate: Rate,
    investmentReturnRate: Rate,
    expenseGrowthRate: Rate,
    events: seq<LifeEvent>)

  /** The four standard normal deviates drawn in one simulated year, in the order the source draws them. */
  datatype Deviates = Deviates(inflation: real, incomeGrowth: real, investmentReturn: real, expenseGrowth: real)

  /** The four normal draws of one simulated year, in percent. */
  datatype Draws = Draws(inflation: real, incomeGrowth: real, investmentReturn: real, expenseGrowth: real)

  /** Net worth and the monthly income and expenses carried from one year to the next. */
  datatype SimState = SimState(netWorth: real, income: real, expenses: real)

  datatype MonteCarloResult = MonteCarloResult(
    years: seq<int>,
    p10: seq<real>,
    p25: seq<real>,
    p50: seq<real>,
    p75: seq<real>,
    p90: seq<real>,
    finalNetWorthMean: real,
    finalNetWorthMedian: real,
    finalNetWorthVariance: real,
    probabilityOfSuccess: real,
    valueAtRisk: real,
    allSimulations: seq<seq<real>>)

  datatype ScenarioComparison = ScenarioComparison(baseCase: MonteCarloResult, bestCase: MonteCarloResult, worstCase: MonteCarloResult)

  /** The most trajectories returned for display. */
  const MaxReturned: nat := 100

  // ---------------------------------------------------------------- one run

  /** `randomNormal(rate.mean, rate.stdDev)` for the standard normal deviate `z`. */
  function Sample(rate: Rate, z: real): (r: real)
    ensures z == 0.0 || rate.stdDev == 0.0 ==> r == rate.mean
    ensures rate.stdDev > 0.0 ==> (r >= rate.mean <==> z >= 0.0)
  {
    z * rate.stdDev + rate.mean
  }

  /** The year's draws from the configured distributions. */
  function SampleYear(config: Config, z: Deviates): Draws
  {
    Draws(Sample(config.inflationRate, z.inflation), Sample(config.incomeGrowthRate, z.incomeGrowth),
          Sample(config.investmentReturnRate, z.investmentReturn), Sample(config.expenseGrowthRate, z.expenseGrowth))
  }

  /** The net effect of the events of one year: income events add their amount, expense events subtract it. */
  function EventImpact(events: seq<LifeEvent>, year: int): (r: real)
    ensures (forall e :: e in events ==> e.year != year) ==> r == 0.0
  {
    if events == [] then 0.0
    else
      var e := events[|events| - 1];
      var impact := if e.year != year then 0.0 else if e.eventType == IncomeEvent then e.amount else -e.amount;
      EventImpact(events[..|events| - 1], year) + impact
  }

  /**
   * One simulated year from percent rates: income and expenses grow by their rates, twelve
   * months of the new savings, the return on the current net worth and the year's event
   * impact are added, and a negative result is clamped to 0.
   */
  function Grow(s: SimState, incomeGrowthPct: real, returnPct: real, expenseGrowthPct: real, impact: real): (r: SimState)
    ensures r.netWorth >= 0.0
    ensures incomeGrowthPct == 0.0 ==> r.income == s.income
    ensures expenseGrowthPct == 0.0 ==> r.expenses == s.expenses
    ensures var unclamped := s.netWorth + (r.income - r.expenses) * 12.0 + s.netWorth * (returnPct / 100.0) + impact;
      r.netWorth == (if unclamped > 0.0 then unclamped else 0.0)
  {
    var income := s.income * (1.0 + incomeGrowthPct / 100.0);
    var expenses := s.expenses * (1.0 + expenseGrowthPct / 100.0);
    var annualSavings := (income - expenses) * 12.0;
    var next := s.netWorth + annualSavings + s.netWorth * (returnPct / 100.0) + impact;
    SimState(if next < 0.0 then 0.0 else next, income, expenses)
  }

  /** One simulated year with the year's draws; the sampled inflation is drawn but never used. */
  function Step(config: Config, s: SimState, z: Deviates, year: int): (r: SimState)
    ensures r.netWorth >= 0.0
  {
    var draws := SampleYear(config, z);
    Grow(s, draws.incomeGrowth, draws.investmentReturn, draws.expenseGrowth, EventImpact(config.events, year))
  }

  function InitialState(config: Config): SimState
  {
    SimState(config.currentNetWorth, config.monthlyIncome, config.monthlyExpenses)
  }

  /** The state after `year` simulated years. */
  function StateAt(config: Config, zs: seq<Deviates>, year: nat): SimState
    requires year <= |zs|
  {
    if year == 0 then InitialState(config)
    else Step(config, StateAt(config, zs, year - 1), zs[year - 1], year)
  }

  /** The net worth at years 0..`year`. */
  function NetWorths(config: Config, zs: seq<Deviates>, year: nat): (t: seq<real>)
    requires year <= |zs|
    ensures |t| == year + 1
  {
    if year == 0 then [config.currentNetWorth]
    else NetWorths(config, zs, year - 1) + [StateAt(config, zs, year).netWorth]
  }

  lemma {:induction false} NetWorthsAt(config: Config, zs: seq<Deviates>, year: nat, y: nat)
    requires y <= year <= |zs|
    ensures NetWorths(config, zs, year)[y] == StateAt(config, zs, y).netWorth
  {
    if y < year {
      NetWorthsAt(config, zs, year - 1, y);
    }
  }

  /** A run's net worth year by year: the current net worth, then one entry per simulated year, never negative. */
  function Trajectory(config: Config, zs: seq<Deviates>): (t: seq<real>)
    requires |zs| == config.simulationYears
    ensures |t| == config.simulationYears + 1
    ensures t[0] == config.currentNetWorth
    ensures forall y :: 1 <= y < |t| ==> t[y] >= 0.0
  {
    var t := NetWorths(config, zs, |zs|);
    forall y | 0 <= y < |t|
      ensures t[y] == StateAt(config, zs, y).netWorth
    {
      NetWorthsAt(config, zs, |zs|, y);
    }
    t
  }

  method RunSingleSimulation(config: Config, zs: seq<Deviates>) returns (netWorthByYear: seq<real>)
    requires |zs| == config.simulationYears
    ensures netWorthByYear == Trajectory(config, zs)
  {
    netWorthByYear := [config.currentNetWorth];
    var currentIncome := config.monthlyIncome;
    var currentExpenses := config.monthlyExpenses;
    var netWorth := config.currentNetWorth;

    for year := 1 to config.simulationYears + 1
      invariant netWorthByYear == NetWorths(config, zs, year - 1)
      invariant SimState(netWorth, currentIncome, currentExpenses) == StateAt(config, zs, year - 1)
    {
      var z := zs[year - 1];
      var draws := SampleYear(config, z);
      var inflation := draws.inflation / 100.0;
      var incomeGrowth := draws.incomeGrowth / 100.0;
      var investmentReturn := draws.investmentReturn / 100.0;
      var expenseGrowth := draws.expenseGrowth / 100.0;

      ghost var previous := SimState(netWorth, currentIncome, currentExpenses);
      currentIncome := currentIncome * (1.0 + incomeGrowth);
      currentExpenses := currentExpenses * (1.0 + expenseGrowth);
      var annualSavings := (currentIncome - currentExpenses) * 12.0;
      var investmentGain := netWorth * investmentReturn;
      var eventImpact := EventImpact(config.events, year);

      netWorth := netWorth + annualSavings + investmentGain + eventImpact;
      StepFromParts(config, previous, z, year, currentIncome, currentExpenses, netWorth);
      if netWorth < 0.0 {
        netWorth := 0.0;
      }
      netWorthByYear := netWorthByYear + [netWorth];
    }
  }

  /** The step in terms of the new income, the new expenses and the net worth before clamping. */
  lemma StepFromParts(config: Config, s: SimState, z: Deviates, year: int, income: real, expenses: real, unclamped: real)
    requires income == s.income * (1.0 + SampleYear(config, z).incomeGrowth / 100.0)
    requires expenses == s.expenses * (1.0 + SampleYear(config, z).expenseGrowth / 100.0)
    requires unclamped == s.netWorth + (income - expenses) * 12.0
                          + s.netWorth * (SampleYear(config, z).investmentReturn / 100.0)
                          + EventImpact(config.events, year)
    ensures Step(config, s, z, year) == SimState(if unclamped < 0.0 then 0.0 else unclamped, income, expenses)
  {
  }

  /** A year's step reads only the three growth distributions, their deviates and that year's event impact. */
  lemma StepReads(c1: Config, c2: Config, s: SimState, z: Deviates, w: Deviates, year: int)
    requires c1.incomeGrowthRate == c2.incomeGrowthRate && c1.investmentReturnRate == c2.investmentReturnRate
    requires c1.expenseGrowthRate == c2.expenseGrowthRate
    requires EventImpact(c1.events, year) == EventImpact(c2.events, year)
    requires z.incomeGrowth == w.incomeGrowth && z.investmentReturn == w.investmentReturn && z.expenseGrowth == w.expenseGrowth
    ensures Step(c1, s, z, year) == Step(c2, s, w, year)
  {
    var d1, d2 := SampleYear(c1, z), SampleYear(c2, w);
    assert d1.incomeGrowth == d2.incomeGrowth && d1.investmentReturn == d2.investmentReturn;
    assert d1.expenseGrowth == d2.expenseGrowth;
  }

  /** The sampled inflation and its distribution affect nothing. */
  lemma {:induction false} InflationIsIgnored(config: Config, inflation: Rate, zs: seq<Deviates>, ws: seq<Deviates>, year: nat)
    requires |zs| == |ws| && year <= |zs|
    requires forall i :: 0 <= i < |zs| ==> zs[i].(inflation := 0.0) == ws[i].(inflation := 0.0)
    ensures StateAt(config, zs, year) == StateAt(config.(inflationRate := inflation), ws, year)
  {
    if year > 0 {
      InflationIsIgnored(config, inflation, zs, ws, year - 1);
      var z, w := zs[year - 1], ws[year - 1];
      assert z.(inflation := 0.0) == w.(inflation := 0.0);
      StepReads(config, config.(inflationRate := inflation), StateAt(config, zs, year - 1), z, w, year);
    }
  }

  /** An extra event dated outside the years the run visits (year 0 or before, or after the horizon) changes nothing. */
  lemma {:induction false} OutOfRangeEventsIgnored(config: Config, e: LifeEvent, zs: seq<Deviates>, year: nat)
    requires year <= |zs| == config.simulationYears
    requires e.year < 1 || e.year > config.simulationYears
    ensures StateAt(config.(events := config.events + [e]), zs, year) == StateAt(config, zs, year)
  {
    if year > 0 {
      OutOfRangeEventsIgnored(config, e, zs, year - 1);
      var events := config.events + [e];
      assert events[..|events| - 1] == config.events;
      assert EventImpact(events, year) == EventImpact(config.events, year);
      StepReads(config.(events := events), config, StateAt(config, zs, year - 1), zs[year - 1], zs[year - 1], year);
    }
  }

  /** `a + a * r <= b + b * r` when `a <= b` and `r` loses no more than everything. */
  lemma ReturnMonotone(a: real, b: real, r: real)
    requires a <= b && r >= -1.0
    ensures a + a * r <= b + b * r
  {
    assert (b + b * r) - (a + a * r) == (b - a) * (1.0 + r);
    MulMonotone(a, b, 1.0 + r);
    assert a * (1.0 + r) == a + a * r && b * (1.0 + r) == b + b * r;
  }

  /**
   * From the same income and expenses, a year's step keeps the order of net worths,
   * provided the sampled return loses no more than everything.
   */
  lemma StepMonotone(config: Config, s1: SimState, s2: SimState, z: Deviates, year: int)
    requires s1.netWorth <= s2.netWorth && s1.income == s2.income && s1.expenses == s2.expenses
    requires Sample(config.investmentReturnRate, z.investmentReturn) >= -100.0
    ensures Step(config, s1, z, year).netWorth <= Step(config, s2, z, year).netWorth
    ensures Step(config, s1, z, year).income == Step(config, s2, z, year).income
    ensures Step(config, s1, z, year).expenses == Step(config, s2, z, year).expenses
  {
    var investmentReturn := Sample(config.investmentReturnRate, z.investmentReturn) / 100.0;
    ReturnMonotone(s1.netWorth, s2.netWorth, investmentReturn);
  }

  /** While no sampled return loses more than everything, a larger starting net worth never ends a year with less. */
  lemma {:induction false} StartMonotone(config: Config, start: real, zs: seq<Deviates>, year: nat)
    requires config.currentNetWorth <= start && year <= |zs|
    requires forall i :: 0 <= i < |zs| ==> Sample(config.investmentReturnRate, zs[i].investmentReturn) >= -100.0
    ensures StateAt(config, zs, year).netWorth <= StateAt(config.(currentNetWorth := start), zs, year).netWorth
    ensures StateAt(config, zs, year).income == StateAt(config.(currentNetWorth := start), zs, year).income
    ensures StateAt(config, zs, year).expenses == StateAt(config.(currentNetWorth := start), zs, year).expenses
  {
    if year > 0 {
      StartMonotone(config, start, zs, year - 1);
      var richer := config.(currentNetWorth := start);
      StepMonotone(config, StateAt(config, zs, year - 1), StateAt(richer, zs, year - 1), zs[year - 1], year);
      StepReads(config, richer, StateAt(richer, zs, year - 1), zs[year - 1], zs[year - 1], year);
    }
  }

  // ---------------------------------------------------------------- aggregation

  lemma MulMonotone(a: real, b: real, c: real)
    requires a <= b && c >= 0.0
    ensures a * c <= b * c
  {
    assert b * c - a * c == (b - a) * c;
  }

  /** One trajectory per run. */
  function Trajectories(config: Config, runs: seq<seq<Deviates>>): (ts: seq<seq<real>>)
    requires forall k :: 0 <= k < |runs| ==> |runs[k]| == config.simulationYears
    ensures |ts| == |runs|
    ensures forall k :: 0 <= k < |ts| ==> ts[k] == Trajectory(config, runs[k])
    ensures Shaped(ts, config.simulationYears)
  {
    seq(|runs|, k requires 0 <= k < |runs| => Trajectory(config, runs[k]))
  }

  lemma TrajectoriesSnoc(config: Config, runs: seq<seq<Deviates>>, i: nat)
    requires i < |runs|
    requires forall k :: 0 <= k < |runs| ==> |runs[k]| == config.simulationYears
    ensures Trajectories(config, runs[..i + 1]) == Trajectories(config, runs[..i]) + [Trajectory(config, runs[i])]
  {
    assert runs[..i + 1] == runs[..i] + [runs[i]];
  }

  /** Every trajectory has an entry for each year 0..`years`. */
  predicate Shaped(ts: seq<seq<real>>, years: nat)
  {
    forall k :: 0 <= k < |ts| ==> |ts[k]| == years + 1
  }

  /** The values of all runs at one year. */
  function Column(ts: seq<seq<real>>, year: nat): (c: seq<real>)
    requires forall k :: 0 <= k < |ts| ==> year < |ts[k]|
    ensures |c| == |ts|
    ensures forall k :: 0 <= k < |ts| ==> c[k] == ts[k][year]
  {
    seq(|ts|, k requires 0 <= k < |ts| => ts[k][year])
  }

  /** `Math.floor(n * p)`, the nearest-rank index of the `p` quantile of `n` sorted values. */
  function PercentileIndex(n: nat, p: real): (i: nat)
    requires n >= 1 && 0.0 <= p < 1.0
    ensures i < n
  {
    (n as real * p).Floor
  }

  lemma PercentileIndexMonotone(n: nat, p: real, q: real)
    requires n >= 1 && 0.0 <= p <= q < 1.0
    ensures PercentileIndex(n, p) <= PercentileIndex(n, q)
  {
    MulMonotone(p, q, n as real);
    assert p * n as real == n as real * p && q * n as real == n as real * q;
    FloorMonotone(n as real * p, n as real * q);
  }

  lemma FloorMonotone(x: real, y: real)
    requires x <= y
    ensures x.Floor <= y.Floor
  {
    assert x.Floor as real <= x;
    assert y < y.Floor as real + 1.0;
  }

  /** The value at the nearest-rank index of the `p` quantile, in the ascending sort of `values`. */
  function Percentile(values: seq<real>, p: real): (v: real)
    requires values != [] && 0.0 <= p < 1.0
    ensures v in multiset(values)
  {
    var sorted := SortAsc(values);
    assert sorted[PercentileIndex(|values|, p)] in multiset(sorted);
    sorted[PercentileIndex(|values|, p)]
  }

  /** A lower quantile never reads a larger value. */
  lemma PercentileMonotone(values: seq<real>, p: real, q: real)
    requires values != [] && 0.0 <= p <= q < 1.0
    ensures Percentile(values, p) <= Percentile(values, q)
  {
    PercentileIndexMonotone(|values|, p, q);
    var sorted := SortAsc(values);
    var i, j := PercentileIndex(|values|, p), PercentileIndex(|values|, q);
    assert i <= j < |sorted|;
    assert sorted[i] <= sorted[j];
  }

  function Sum(values: seq<real>): real
  {
    if values == [] then 0.0 else Sum(values[..|values| - 1]) + values[|values| - 1]
  }

  /** A sum of values between `lo` and `hi` lies between `lo` and `hi` times their number. */
  lemma {:induction false} SumBounds(values: seq<real>, lo: real, hi: real)
    requires forall k :: 0 <= k < |values| ==> lo <= values[k] <= hi
    ensures lo * |values| as real <= Sum(values) <= hi * |values| as real
  {
    if values != [] {
      SumBounds(values[..|values| - 1], lo, hi);
    }
  }

  function SumSquaredDeviations(values: seq<real>, mean: real): (r: real)
    ensures r >= 0.0
  {
    if values == [] then 0.0
    else
      var d := values[|values| - 1] - mean;
      SumSquaredDeviations(values[..|values| - 1], mean) + d * d
  }

  /** How many values are strictly positive. */
  function CountPositive(values: seq<real>): (n: nat)
    ensures n <= |values|
  {
    if values == [] then 0
    else CountPositive(values[..|values| - 1]) + (if values[|values| - 1] > 0.0 then 1 else 0)
  }

  lemma {:induction false} CountPositiveAppend(a: seq<real>, b: seq<real>)
    ensures CountPositive(a + b) == CountPositive(a) + CountPositive(b)
  {
    if b != [] {
      assert (a + b)[..|a + b| - 1] == a + b[..|b| - 1];
      CountPositiveAppend(a, b[..|b| - 1]);
    } else {
      assert a + b == a;
    }
  }

  /** The number of positive values depends only on which values there are, not on their order. */
  lemma {:induction false} CountPositivePermutation(a: seq<real>, b: seq<real>)
    requires multiset(a) == multiset(b)
    ensures CountPositive(a) == CountPositive(b)
    decreases |a|
  {
    if a != [] {
      var x := a[|a| - 1];
      var rest := a[..|a| - 1];
      assert a == rest + [x];
      assert x in multiset(b);
      var k :| 0 <= k < |b| && b[k] == x;
      assert b == b[..k] + [x] + b[k + 1..];
      var others := b[..k] + b[k + 1..];
      assert multiset(b) == multiset(b[..k]) + multiset([x]) + multiset(b[k + 1..]);
      assert multiset(others) == multiset(b[..k]) + multiset(b[k + 1..]);
      assert multiset(a) == multiset(rest) + multiset([x]);
      assert multiset(others) == multiset(b) - multiset([x]);
      assert multiset(rest) == multiset(a) - multiset([x]);
      CountPositivePermutation(rest, others);
      CountPositiveAppend(b[..k] + [x], b[k + 1..]);
      CountPositiveAppend(b[..k], [x]);
      CountPositiveAppend(b[..k], b[k + 1..]);
      assert CountPositive([x]) == CountPositive(a) - CountPositive(rest);
    } else {
      assert |b| == |multiset(b)| == 0;
    }
  }

  /** The years 0..`count` - 1. */
  function YearIndices(count: nat): (ys: seq<int>)
    ensures |ys| == count
    ensures forall y :: 0 <= y < count ==> ys[y] == y
  {
    if count == 0 then [] else YearIndices(count - 1) + [count - 1]
  }

  /** The `p` percentile of each of the years 0..`count` - 1. */
  function Band(years: nat, ts: seq<seq<real>>, p: real, count: nat): (b: seq<real>)
    requires |ts| >= 1 && Shaped(ts, years) && 0.0 <= p < 1.0 && count <= years + 1
    ensures |b| == count
  {
    if count == 0 then [] else Band(years, ts, p, count - 1) + [Percentile(Column(ts, count - 1), p)]
  }

  /** A band grows by the value read from the sorted values of the next year. */
  lemma BandSnoc(years: nat, ts: seq<seq<real>>, p: real, count: nat)
    requires |ts| >= 1 && Shaped(ts, years) && 0.0 <= p < 1.0 && count <= years
    ensures Band(years, ts, p, count + 1) == Band(years, ts, p, count) + [SortAsc(Column(ts, count))[PercentileIndex(|ts|, p)]]
  {
  }

  lemma {:induction false} BandAt(years: nat, ts: seq<seq<real>>, p: real, count: nat, y: nat)
    requires |ts| >= 1 && Shaped(ts, years) && 0.0 <= p < 1.0 && y < count <= years + 1
    ensures Band(years, ts, p, count)[y] == Percentile(Column(ts, y), p)
  {
    var prefix := Band(years, ts, p, count - 1);
    assert Band(years, ts, p, count) == prefix + [Percentile(Column(ts, count - 1), p)];
    if y < count - 1 {
      BandAt(years, ts, p, count - 1, y);
    }
  }

  /**
   * The summary of a set of runs: per-year percentiles, final-year mean, median,
   * variance (the square root is not modelled), fraction of runs ending above 0, the
   * 5% value at risk, and the first 100 trajectories.
   */
  function Summarize(years: nat, ts: seq<seq<real>>): (r: MonteCarloResult)
    requires |ts| >= 1 && Shaped(ts, years)
    ensures |r.years| == years + 1 && forall y :: 0 <= y <= years ==> r.years[y] == y
    ensures |r.allSimulations| == Min(MaxReturned, |ts|)
    ensures forall k :: 0 <= k < |r.allSimulations| ==> r.allSimulations[k] == ts[k]
  {
    var n := |ts|;
    var finalValues := SortAsc(Column(ts, years));
    var mean := Sum(finalValues) / n as real;
    MonteCarloResult(
      YearIndices(years + 1),
      Band(years, ts, 0.1, years + 1),
      Band(years, ts, 0.25, years + 1),
      Band(years, ts, 0.5, years + 1),
      Band(years, ts, 0.75, years + 1),
      Band(years, ts, 0.9, years + 1),
      mean,
      finalValues[PercentileIndex(n, 0.5)],
      SumSquaredDeviations(finalValues, mean) / n as real,
      CountPositive(finalValues) as real / n as real,
      finalValues[PercentileIndex(n, 0.05)],
      ts[..Min(MaxReturned, n)])
  }

  /** At every year the five percentile bands are ordered p10 <= p25 <= p50 <= p75 <= p90. */
  lemma PercentileBandsOrdered(years: nat, ts: seq<seq<real>>)
    requires |ts| >= 1 && Shaped(ts, years)
    ensures var r := Summarize(years, ts);
      && |r.p10| == |r.p25| == |r.p50| == |r.p75| == |r.p90| == years + 1
      && forall y :: 0 <= y <= years ==> r.p10[y] <= r.p25[y] <= r.p50[y] <= r.p75[y] <= r.p90[y]
  {
    var r := Summarize(years, ts);
    forall y | 0 <= y <= years
      ensures r.p10[y] <= r.p25[y] <= r.p50[y] <= r.p75[y] <= r.p90[y]
    {
      var c := Column(ts, y);
      BandAt(years, ts, 0.1, years + 1, y);
      BandAt(years, ts, 0.25, years + 1, y);
      BandAt(years, ts, 0.5, years + 1, y);
      BandAt(years, ts, 0.75, years + 1, y);
      BandAt(years, ts, 0.9, years + 1, y);
      PercentileMonotone(c, 0.1, 0.25);
      PercentileMonotone(c, 0.25, 0.5);
      PercentileMonotone(c, 0.5, 0.75);
      PercentileMonotone(c, 0.75, 0.9);
    }
  }

  /** `total / n` lies between `lo` and `hi` when `total` lies between `lo * n` and `hi * n`. */
  lemma DivideBetween(lo: real, total: real, hi: real, n: real)
    requires n > 0.0 && lo * n <= total <= hi * n
    ensures lo <= total / n <= hi
  {
    var q := total / n;
    assert q * n == total;
    assert (q - lo) * n == total - lo * n;
    assert (hi - q) * n == hi * n - total;
  }

  /** The mean of non-empty values between `lo` and `hi` lies between `lo` and `hi`. */
  lemma MeanBetween(values: seq<real>, lo: real, hi: real)
    requires values != []
    requires forall k :: 0 <= k < |values| ==> lo <= values[k] <= hi
    ensures lo <= Sum(values) / |values| as real <= hi
  {
    SumBounds(values, lo, hi);
    DivideBetween(lo, Sum(values), hi, |values| as real);
  }

  /** The value at risk is no more than the median; the median is the last p50 entry; both are final values of some run. */
  lemma MedianAndValueAtRisk(years: nat, ts: seq<seq<real>>)
    requires |ts| >= 1 && Shaped(ts, years)
    ensures var r := Summarize(years, ts);
      && r.valueAtRisk <= r.finalNetWorthMedian
      && r.finalNetWorthMedian == r.p50[years]
      && r.finalNetWorthMedian in multiset(Column(ts, years))
      && r.valueAtRisk in multiset(Column(ts, years))
  {
    var c := Column(ts, years);
    PercentileMonotone(c, 0.05, 0.5);
    assert Summarize(years, ts).valueAtRisk == Percentile(c, 0.05);
    assert Summarize(years, ts).finalNetWorthMedian == Percentile(c, 0.5);
  }

  /** An element of the sorted copy is found at some index of the original. */
  lemma IndexOfSorted(c: seq<real>, k: nat) returns (i: nat)
    requires k < |c|
    ensures i < |c| && c[i] == SortAsc(c)[k]
  {
    var sorted := SortAsc(c);
    assert sorted[k] in multiset(sorted);
    i :| 0 <= i < |c| && c[i] == sorted[k];
  }

  /** Every value of a sorted sequence lies between its first and its last. */
  lemma SortedBetweenEnds(s: seq<real>)
    requires s != [] && SortedAsc(s)
    ensures forall k :: 0 <= k < |s| ==> s[0] <= s[k] <= s[|s| - 1]
  {
  }

  /** The mean of the sorted values lies between two of the values. */
  lemma SortedMeanBetween(c: seq<real>) returns (i: nat, j: nat)
    requires c != []
    ensures i < |c| && j < |c| && c[i] <= Sum(SortAsc(c)) / |c| as real <= c[j]
  {
    var sorted := SortAsc(c);
    i := IndexOfSorted(c, 0);
    j := IndexOfSorted(c, |c| - 1);
    SortedBetweenEnds(sorted);
    MeanBetween(sorted, sorted[0], sorted[|c| - 1]);
  }

  /** The mean final net worth lies between the smallest and the largest final value. */
  lemma MeanBetweenFinalValues(years: nat, ts: seq<seq<real>>)
    requires |ts| >= 1 && Shaped(ts, years)
    ensures var mean := Summarize(years, ts).finalNetWorthMean;
      exists i, j :: 0 <= i < |ts| && 0 <= j < |ts| && ts[i][years] <= mean <= ts[j][years]
  {
    var c := Column(ts, years);
    var i, j := SortedMeanBetween(c);
    assert Summarize(years, ts).finalNetWorthMean == Sum(SortAsc(c)) / |ts| as real;
    assert ts[i][years] == c[i] && ts[j][years] == c[j];
  }

  /** `count / n` is a fraction in [0, 1]. */
  lemma Fraction(count: real, n: real)
    requires 0.0 <= count <= n && n > 0.0
    ensures 0.0 <= count / n <= 1.0
  {
    DivideBetween(0.0, count, 1.0, n);
  }

  /** The variance of the final values is non-negative. */
  lemma VarianceNonNegative(years: nat, ts: seq<seq<real>>)
    requires |ts| >= 1 && Shaped(ts, years)
    ensures Summarize(years, ts).finalNetWorthVariance >= 0.0
  {
    var sorted := SortAsc(Column(ts, years));
    var squares := SumSquaredDeviations(sorted, Sum(sorted) / |ts| as real);
    DivideBetween(0.0, squares, squares, |ts| as real);
  }

  /** The success probability is the fraction of runs whose final net worth is strictly above 0. */
  lemma SuccessIsFractionAboveZero(years: nat, ts: seq<seq<real>>)
    requires |ts| >= 1 && Shaped(ts, years)
    ensures var p := Summarize(years, ts).probabilityOfSuccess;
      && 0.0 <= p <= 1.0
      && p == CountPositive(Column(ts, years)) as real / |ts| as real
  {
    var c := Column(ts, years);
    var sorted := SortAsc(c);
    var count, n := CountPositive(sorted) as real, |ts| as real;
    assert Summarize(years, ts).probabilityOfSuccess == count / n;
    CountPositivePermutation(sorted, c);
    Fraction(count, n);
  }

  /** One simulation per run of deviates, collected in order. */
  method RunAllSimulations(config: Config, runs: seq<seq<Deviates>>) returns (allSimulations: seq<seq<real>>)
    requires forall k :: 0 <= k < |runs| ==> |runs[k]| == config.simulationYears
    ensures allSimulations == Trajectories(config, runs)
  {
    allSimulations := [];
    for i := 0 to |runs|
      invariant allSimulations == Trajectories(config, runs[..i])
    {
      var simulation := RunSingleSimulation(config, runs[i]);
      TrajectoriesSnoc(config, runs, i);
      allSimulations := allSimulations + [simulation];
    }
    assert runs[..|runs|] == runs;
  }

  /** The year-by-year loop of the simulation: the five percentile bands, each read from the sorted values of one year. */
  method PercentileBands(years: nat, ts: seq<seq<real>>) returns (p10: seq<real>, p25: seq<real>, p50: seq<real>, p75: seq<real>, p90: seq<real>)
    requires |ts| >= 1 && Shaped(ts, years)
    ensures p10 == Band(years, ts, 0.1, years + 1) && p25 == Band(years, ts, 0.25, years + 1)
    ensures p50 == Band(years, ts, 0.5, years + 1) && p75 == Band(years, ts, 0.75, years + 1)
    ensures p90 == Band(years, ts, 0.9, years + 1)
  {
    p10, p25, p50, p75, p90 := [], [], [], [], [];
    for yearIdx := 0 to years + 1
      invariant p10 == Band(years, ts, 0.1, yearIdx)
      invariant p25 == Band(years, ts, 0.25, yearIdx)
      invariant p50 == Band(years, ts, 0.5, yearIdx)
      invariant p75 == Band(years, ts, 0.75, yearIdx)
      invariant p90 == Band(years, ts, 0.9, yearIdx)
    {
      var valuesAtYear := SortAsc(Column(ts, yearIdx));
      BandSnoc(years, ts, 0.1, yearIdx);
      BandSnoc(years, ts, 0.25, yearIdx);
      BandSnoc(years, ts, 0.5, yearIdx);
      BandSnoc(years, ts, 0.75, yearIdx);
      BandSnoc(years, ts, 0.9, yearIdx);
      p10 := p10 + [valuesAtYear[PercentileIndex(|ts|, 0.1)]];
      p25 := p25 + [valuesAtYear[PercentileIndex(|ts|, 0.25)]];
      p50 := p50 + [valuesAtYear[PercentileIndex(|ts|, 0.5)]];
      p75 := p75 + [valuesAtYear[PercentileIndex(|ts|, 0.75)]];
      p90 := p90 + [valuesAtYear[PercentileIndex(|ts|, 0.9)]];
    }
  }

  method RunMonteCarloSimulation(config: Config, runs: seq<seq<Deviates>>) returns (r: MonteCarloResult)
    requires config.numSimulations >= 1 && |runs| == config.numSimulations
    requires forall k :: 0 <= k < |runs| ==> |runs[k]| == config.simulationYears
    ensures r == Summarize(config.simulationYears, Trajectories(config, runs))
  {
    var simulationYears := config.simulationYears;
    var n := config.numSimulations;
    var allSimulations := RunAllSimulations(config, runs);

    var years := YearIndices(simulationYears + 1);
    var p10, p25, p50, p75, p90 := PercentileBands(simulationYears, allSimulations);

    var finalValues := SortAsc(Column(allSimulations, simulationYears));
    var finalNetWorthMean := Sum(finalValues) / n as real;
    var finalNetWorthMedian := finalValues[PercentileIndex(n, 0.5)];
    var variance := SumSquaredDeviations(finalValues, finalNetWorthMean) / n as real;
    var successCount := CountPositive(finalValues);
    var probabilityOfSuccess := successCount as real / n as real;
    var valueAtRisk := finalValues[PercentileIndex(n, 0.05)];

    r := MonteCarloResult(years, p10, p25, p50, p75, p90,
                          finalNetWorthMean, finalNetWorthMedian, variance, probabilityOfSuccess, valueAtRisk,
                          allSimulations[..Min(MaxReturned, n)]);
  }

  // ---------------------------------------------------------------- scenarios

  /** The optimistic configuration: better means for every rate, half the spread. */
  function BestCaseConfig(base: Config): (c: Config)
    ensures c.(inflationRate := base.inflationRate, incomeGrowthRate := base.incomeGrowthRate,
               investmentReturnRate := base.investmentReturnRate, expenseGrowthRate := base.expenseGrowthRate) == base
    ensures c.inflationRate.mean < base.inflationRate.mean && c.expenseGrowthRate.mean < base.expenseGrowthRate.mean
    ensures c.incomeGrowthRate.mean > base.incomeGrowthRate.mean && c.investmentReturnRate.mean > base.investmentReturnRate.mean
    ensures base.inflationRate.stdDev >= 0.0 ==> 0.0 <= c.inflationRate.stdDev <= base.inflationRate.stdDev
    ensures base.inflationRate.stdDev > 0.0 ==> c.inflationRate.stdDev < base.inflationRate.stdDev
    ensures base.incomeGrowthRate.stdDev >= 0.0 ==> 0.0 <= c.incomeGrowthRate.stdDev <= base.incomeGrowthRate.stdDev
    ensures base.incomeGrowthRate.stdDev > 0.0 ==> c.incomeGrowthRate.stdDev < base.incomeGrowthRate.stdDev
    ensures base.investmentReturnRate.stdDev >= 0.0 ==> 0.0 <= c.investmentReturnRate.stdDev <= base.investmentReturnRate.stdDev
    ensures base.investmentReturnRate.stdDev > 0.0 ==> c.investmentReturnRate.stdDev < base.investmentReturnRate.stdDev
    ensures base.expenseGrowthRate.stdDev >= 0.0 ==> 0.0 <= c.expenseGrowthRate.stdDev <= base.expenseGrowthRate.stdDev
    ensures base.expenseGrowthRate.stdDev > 0.0 ==> c.expenseGrowthRate.stdDev < base.expenseGrowthRate.stdDev
  {
    base.(
      inflationRate := Rate(base.inflationRate.mean - 0.5, base.inflationRate.stdDev * 0.5),
      incomeGrowthRate := Rate(base.incomeGrowthRate.mean + 1.0, base.incomeGrowthRate.stdDev * 0.5),
      investmentReturnRate := Rate(base.investmentReturnRate.mean + 2.0, base.investmentReturnRate.stdDev * 0.5),
      expenseGrowthRate := Rate(base.expenseGrowthRate.mean - 0.5, base.expenseGrowthRate.stdDev * 0.5))
  }

  /** The pessimistic configuration: worse means for every rate, one and a half times the spread. */
  function WorstCaseConfig(base: Config): (c: Config)
    ensures c.(inflationRate := base.inflationRate, incomeGrowthRate := base.incomeGrowthRate,
               investmentReturnRate := base.investmentReturnRate, expenseGrowthRate := base.expenseGrowthRate) == base
    ensures c.inflationRate.mean > base.inflationRate.mean && c.expenseGrowthRate.mean > base.expenseGrowthRate.mean
    ensures c.incomeGrowthRate.mean < base.incomeGrowthRate.mean && c.investmentReturnRate.mean < base.investmentReturnRate.mean
    ensures base.inflationRate.stdDev >= 0.0 ==> base.inflationRate.stdDev <= c.inflationRate.stdDev
    ensures base.inflationRate.stdDev > 0.0 ==> c.inflationRate.stdDev > base.inflationRate.stdDev
    ensures base.incomeGrowthRate.stdDev >= 0.0 ==> base.incomeGrowthRate.stdDev <= c.incomeGrowthRate.stdDev
    ensures base.incomeGrowthRate.stdDev > 0.0 ==> c.incomeGrowthRate.stdDev > base.incomeGrowthRate.stdDev
    ensures base.investmentReturnRate.stdDev >= 0.0 ==> base.investmentReturnRate.stdDev <= c.investmentReturnRate.stdDev
    ensures base.investmentReturnRate.stdDev > 0.0 ==> c.investmentReturnRate.stdDev > base.investmentReturnRate.stdDev
    ensures base.expenseGrowthRate.stdDev >= 0.0 ==> base.expenseGrowthRate.stdDev <= c.expenseGrowthRate.stdDev
    ensures base.expenseGrowthRate.stdDev > 0.0 ==> c.expenseGrowthRate.stdDev > base.expenseGrowthRate.stdDev
  {
    base.(
      inflationRate := Rate(base.inflationRate.mean + 1.0, base.inflationRate.stdDev * 1.5),
      incomeGrowthRate := Rate(base.incomeGrowthRate.mean - 1.0, base.incomeGrowthRate.stdDev * 1.5),
      investmentReturnRate := Rate(base.investmentReturnRate.mean - 2.0, base.investmentReturnRate.stdDev * 1.5),
      expenseGrowthRate := Rate(base.expenseGrowthRate.mean + 1.0, base.expenseGrowthRate.stdDev * 1.5))
  }

  /**
   * For the same deviate, the best case samples an investment return at least as high as
   * the worst case exactly when the deviate scaled by the base spread, z * stdDev, is at
   * most four percentage points: the means differ by 4 and the spreads by one base spread.
   */
  lemma BestCaseReturnsMore(base: Config, z: real)
    ensures Sample(BestCaseConfig(base).investmentReturnRate, z) >= Sample(WorstCaseConfig(base).investmentReturnRate, z)
        <==> z * base.investmentReturnRate.stdDev <= 4.0
  {
    var sd := base.investmentReturnRate.stdDev;
    assert z * (sd * 0.5) == 0.5 * (z * sd);
    assert z * (sd * 1.5) == 1.5 * (z * sd);
  }

  /** The base, best and worst cases, each run on its own deviates. */
  method RunScenarioComparison(baseConfig: Config, baseRuns: seq<seq<Deviates>>, bestRuns: seq<seq<Deviates>>,
                               worstRuns: seq<seq<Deviates>>) returns (r: ScenarioComparison)
    requires baseConfig.numSimulations >= 1
    requires |baseRuns| == |bestRuns| == |worstRuns| == baseConfig.numSimulations
    requires forall k :: 0 <= k < |baseRuns| ==> |baseRuns[k]| == |bestRuns[k]| == |worstRuns[k]| == baseConfig.simulationYears
    ensures r.baseCase == Summarize(baseConfig.simulationYears, Trajectories(baseConfig, baseRuns))
    ensures r.bestCase == Summarize(baseConfig.simulationYears, Trajectories(BestCaseConfig(baseConfig), bestRuns))
    ensures r.worstCase == Summarize(baseConfig.simulationYears, Trajectories(WorstCaseConfig(baseConfig), worstRuns))
  {
    var baseCase := RunMonteCarloSimulation(baseConfig, baseRuns);
    var bestCase := RunMonteCarloSimulation(BestCaseConfig(baseConfig), bestRuns);
    var worstCase := RunMonteCarloSimulation(WorstCaseConfig(baseConfig), worstRuns);
    r := ScenarioComparison(baseCase, bestCase, worstCase);
  }

  // ---------------------------------------------------------------- goal probability

  /** A run has reached `targetAmount` in `targetYear`; a run without that year has not (`undefined >= x` is false). */
  predicate Reaches(sim: seq<real>, targetAmount: real, targetYear: int)
  {
    0 <= targetYear < |sim| && sim[targetYear] >= targetAmount
  }

  /** How many runs have reached `targetAmount` in `targetYear`. */
  function CountReaching(simulations: seq<seq<real>>, targetAmount: real, targetYear: int): (n: nat)
    ensures n <= |simulations|
    ensures targetYear < 0 ==> n == 0
    ensures n == |simulations| <==> forall k :: 0 <= k < |simulations| ==> Reaches(simulations[k], targetAmount, targetYear)
    ensures n == 0 <==> forall k :: 0 <= k < |simulations| ==> !Reaches(simulations[k], targetAmount, targetYear)
  {
    if simulations == [] then 0
    else
      var prefix := simulations[..|simulations| - 1];
      var sim := simulations[|simulations| - 1];
      assert forall k :: 0 <= k < |prefix| ==> prefix[k] == simulations[k];
      CountReaching(prefix, targetAmount, targetYear) + (if Reaches(sim, targetAmount, targetYear) then 1 else 0)
  }

  /** The fraction of runs that reached the target; NaN for an empty list of runs. */
  function CalculateGoalProbability(simulations: seq<seq<real>>, targetAmount: real, targetYear: int): (p: JsNumber)
    ensures p.Finite? <==> simulations != []
    ensures p.Finite? ==> 0.0 <= p.value <= 1.0
    ensures p == NaN <==> simulations == []
    ensures p.Finite? ==> p.value == CountReaching(simulations, targetAmount, targetYear) as real / |simulations| as real
  {
    var count := CountReaching(simulations, targetAmount, targetYear);
    var r := Div(count as real, |simulations| as real);
    if simulations == [] then r
    else
      Fraction(count as real, |simulations| as real);
      assert r.value == count as real / |simulations| as real;
      r
  }

  /** A higher target is reached by no more runs. */
  lemma {:induction false} CountReachingMonotone(simulations: seq<seq<real>>, lower: real, higher: real, targetYear: int)
    requires lower <= higher
    ensures CountReaching(simulations, higher, targetYear) <= CountReaching(simulations, lower, targetYear)
  {
    if simulations != [] {
      CountReachingMonotone(simulations[..|simulations| - 1], lower, higher, targetYear);
    }
  }

  /** The goal probability never increases with the target amount. */
  lemma GoalProbabilityMonotone(simulations: seq<seq<real>>, lower: real, higher: real, targetYear: int)
    requires simulations != [] && lower <= higher
    ensures CalculateGoalProbability(simulations, higher, targetYear).value
         <= CalculateGoalProbability(simulations, lower, targetYear).value
  {
    CountReachingMonotone(simulations, lower, higher, targetYear);
    var n := |simulations| as real;
    var hi := CountReaching(simulations, higher, targetYear) as real;
    var lo := CountReaching(simulations, lower, targetYear) as real;
    DivideMonotone(hi, lo, n);
    assert CalculateGoalProbability(simulations, higher, targetYear).value == hi / n;
    assert CalculateGoalProbability(simulations, lower, targetYear).value == lo / n;
  }
}

=== FILE: sorting.dfy ===
/**
 * Ascending sort of numbers, the behaviour of `values.sort((a, b) => a - b)`.
 * The engine sorts copies, so the sort is a function from a sequence to a sequence.
 */
module Sorting {

  predicate SortedAsc(s: seq<real>)
  {
    forall i, j :: 0 <= i < j < |s| ==> s[i] <= s[j]
  }

  /** Every element of `s` is at least `y`. */
  predicate LowerBound(y: real, s: seq<real>)
  {
    forall k :: 0 <= k < |s| ==> y <= s[k]
  }

  /** A lower bound of a sequence bounds every permutation of it. */
  lemma LowerBoundOfPermutation(y: real, s: seq<real>, t: seq<real>)
    requires LowerBound(y, s) && multiset(t) == multiset(s)
    ensures LowerBound(y, t)
  {
    forall k | 0 <= k < |t|
      ensures y <= t[k]
    {
      assert t[k] in multiset(s);
    }
  }

  /** Putting a lower bound in front of a sorted sequence keeps it sorted. */
  lemma PrependSorted(y: real, s: seq<real>)
    requires SortedAsc(s) && LowerBound(y, s)
    ensures SortedAsc([y] + s)
  {
    forall i, j | 0 <= i < j < |[y] + s|
      ensures ([y] + s)[i] <= ([y] + s)[j]
    {
      assert ([y] + s)[j] == s[j - 1];
      if i > 0 {
        assert ([y] + s)[i] == s[i - 1];
      }
    }
  }

  /** Inserts `x` into the sorted sequence `s`, before the first element larger than it. */
  function Insert(x: real, s: seq<real>): (r: seq<real>)
    requires SortedAsc(s)
    ensures SortedAsc(r)
    ensures multiset(r) == multiset(s) + multiset{x}
    ensures |r| == |s| + 1
  {
    if s == [] then [x]
    else if x <= s[0] then
      PrependSorted(x, s);
      [x] + s
    else
      assert s == [s[0]] + s[1..];
      var rest := Insert(x, s[1..]);
      assert LowerBound(s[0], s[1..] + [x]);
      LowerBoundOfPermutation(s[0], s[1..] + [x], rest);
      PrependSorted(s[0], rest);
      [s[0]] + rest
  }

  /** The sorted permutation of `s`. */
  function SortAsc(s: seq<real>): (r: seq<real>)
    ensures SortedAsc(r)
    ensures multiset(r) == multiset(s)
    ensures |r| == |s|
  {
    if s == [] then []
    else
      assert s == [s[0]] + s[1..];
      Insert(s[0], SortAsc(s[1..]))
  }
}

=== FILE: spending_map.dfy ===
/**
 * The statistics of the spending map: locations are grouped by district and by place
 * category, each group's absolute amounts are summed and its locations counted, and
 * the five groups with the largest amounts are reported, largest first.
 */
module SpendingMap {
  import opened JsMath

  /** A located transaction; a missing field is `None`. */
  datatype Location = Location(district: Option<string>, placeCategory: Option<string>, amount: Option<real>)

  /** The field a grouping is keyed by. */
  datatype Field = District | Category

  /** One location that has a key: its key and its absolute amount. */
  datatype Entry = Entry(key: string, amount: real)

  /** The running total of one group. */
  datatype Stat = Stat(amount: real, count: nat)

  /** The accumulator: the groups in the order their keys were first seen, and each group's total. */
  datatype Grouping = Grouping(order: seq<string>, stats: map<string, Stat>)

  /** One reported group. */
  datatype StatEntry = StatEntry(key: string, amount: real, count: nat)

  /** How many groups are reported. */
  const TopCount: nat := 5

  // ---------------------------------------------------------------- grouping

  /** The location's key for `field`, or `None` when the field is missing or empty (both are falsy). */
  function KeyOf(loc: Location, field: Field): (k: Option<string>)
    ensures k.Some? ==> k.value != ""
  {
    var value := if field == District then loc.district else loc.placeCategory;
    if value.Some? && value.value != "" then value else None
  }

  /** `Math.abs(loc.amount || 0)`: a missing amount counts as 0. */
  function AbsAmount(loc: Location): (a: real)
    ensures a >= 0.0
    ensures loc.amount.Some? && loc.amount.value != 0.0 ==> a > 0.0
  {
    var v := if loc.amount.Some? then loc.amount.value else 0.0;
    if v < 0.0 then -v else v
  }

  /** The locations that have a key, in order, each with its absolute amount. */
  function Keyed(locs: seq<Location>, field: Field): (es: seq<Entry>)
    ensures |es| <= |locs|
  {
    if locs == [] then []
    else
      var loc := locs[|locs| - 1];
      var k := KeyOf(loc, field);
      Keyed(locs[..|locs| - 1], field) + (if k.Some? then [Entry(k.value, AbsAmount(loc))] else [])
  }

  lemma {:induction false} KeyedAmountsNonNegative(locs: seq<Location>, field: Field, i: nat)
    requires i < |Keyed(locs, field)|
    ensures Keyed(locs, field)[i].amount >= 0.0
  {
    var prefix := Keyed(locs[..|locs| - 1], field);
    if i < |prefix| {
      KeyedAmountsNonNegative(locs[..|locs| - 1], field, i);
    }
  }

  /** The reduce over the entries: a new key opens a group at the end of the order, a known key adds to its group. */
  function Group(es: seq<Entry>): (g: Grouping)
    ensures |g.order| <= |es|
    ensures g.order == [] <==> es == []
    ensures es != [] ==> es[|es| - 1].key in g.stats
  {
    if es == [] then Grouping([], map[]) else AddEntry(Group(es[..|es| - 1]), es[|es| - 1])
  }

  /** One step of the reduce: a known key adds to its group, a new key opens a group at the end of the order. */
  function AddEntry(g: Grouping, e: Entry): Grouping
  {
    if e.key in g.stats then
      Grouping(g.order, g.stats[e.key := Stat(g.stats[e.key].amount + e.amount, g.stats[e.key].count + 1)])
    else
      Grouping(g.order + [e.key], g.stats[e.key := Stat(e.amount, 1)])
  }

  /** The total amount of the entries with key `k`. */
  function AmountFor(es: seq<Entry>, k: string): real
  {
    if es == [] then 0.0
    else AmountFor(es[..|es| - 1], k) + (if es[|es| - 1].key == k then es[|es| - 1].amount else 0.0)
  }

  /** The number of entries with key `k`. */
  function CountFor(es: seq<Entry>, k: string): nat
  {
    if es == [] then 0
    else CountFor(es[..|es| - 1], k) + (if es[|es| - 1].key == k then 1 else 0)
  }

  /** A key has a group exactly when some entry has it, and the group holds that key's total amount and number of entries. */
  lemma {:induction false} GroupHoldsTotals(es: seq<Entry>, k: string)
    ensures k in Group(es).stats <==> CountFor(es, k) > 0
    ensures k in Group(es).stats ==> Group(es).stats[k] == Stat(AmountFor(es, k), CountFor(es, k))
    ensures CountFor(es, k) == 0 ==> AmountFor(es, k) == 0.0
  {
    if es != [] {
      var prefix := es[..|es| - 1];
      var g := Group(prefix);
      GroupHoldsTotals(prefix, k);
      assert CountFor(es, k) == CountFor(prefix, k) + (if es[|es| - 1].key == k then 1 else 0);
      assert AmountFor(es, k) == AmountFor(prefix, k) + (if es[|es| - 1].key == k then es[|es| - 1].amount else 0.0);
    }
  }

  predicate Distinct(ks: seq<string>)
  {
    forall i, j :: 0 <= i < j < |ks| ==> ks[i] != ks[j]
  }

  /** The order lists every group exactly once. */
  lemma {:induction false} OrderListsEachGroupOnce(es: seq<Entry>)
    ensures Distinct(Group(es).order)
    ensures forall k :: k in Group(es).order <==> k in Group(es).stats
  {
    if es != [] {
      var g := Group(es[..|es| - 1]);
      var e := es[|es| - 1];
      OrderListsEachGroupOnce(es[..|es| - 1]);
      if e.key !in g.stats {
        var order := g.order + [e.key];
        forall i, j | 0 <= i < j < |order|
          ensures order[i] != order[j]
        {
          if j == |order| - 1 {
            assert order[i] in g.order;
          }
        }
      }
    }
  }

  /** The position of the first entry with key `k`, or `|es|` when no entry has it. */
  function FirstAt(es: seq<Entry>, k: string): (p: nat)
    ensures p <= |es|
    ensures p < |es| ==> es[p].key == k
    ensures forall q :: 0 <= q < p && q < |es| ==> es[q].key != k
  {
    if es == [] then 0
    else
      var prefix := es[..|es| - 1];
      var p := FirstAt(prefix, k);
      if p < |prefix| then p else if es[|es| - 1].key == k then |prefix| else |es|
  }

  /** A key has a first entry exactly when it has entries at all, so (by GroupHoldsTotals) exactly when it has a group. */
  lemma {:induction false} SeenIffCounted(es: seq<Entry>, k: string)
    ensures FirstAt(es, k) < |es| <==> CountFor(es, k) > 0
    ensures FirstAt(es, k) < |es| <==> k in Group(es).stats
  {
    if es != [] {
      SeenIffCounted(es[..|es| - 1], k);
    }
    GroupHoldsTotals(es, k);
  }

  /** The groups are listed in the order in which their keys first occur among the entries. */
  lemma {:induction false} OrderIsFirstSeen(es: seq<Entry>)
    ensures forall i, j :: 0 <= i < j < |Group(es).order| ==>
              FirstAt(es, Group(es).order[i]) < FirstAt(es, Group(es).order[j])
  {
    if es != [] {
      var prefix := es[..|es| - 1];
      var g := Group(prefix);
      var e := es[|es| - 1];
      OrderIsFirstSeen(prefix);
      OrderListsEachGroupOnce(prefix);
      var order := Group(es).order;
      forall i, j | 0 <= i < j < |order|
        ensures FirstAt(es, order[i]) < FirstAt(es, order[j])
      {
        assert order[i] in g.order;
        SeenIffCounted(prefix, order[i]);
        if j < |g.order| {
          assert order[j] in g.order;
          SeenIffCounted(prefix, order[j]);
        } else {
          assert order[j] == e.key && e.key !in g.stats;
          SeenIffCounted(prefix, e.key);
        }
      }
    }
  }

  /** Every group has at least one location and a non-negative amount. */
  lemma GroupsAreNonEmpty(locs: seq<Location>, field: Field, k: string)
    requires k in Group(Keyed(locs, field)).stats
    ensures Group(Keyed(locs, field)).stats[k].count >= 1 && Group(Keyed(locs, field)).stats[k].amount >= 0.0
  {
    var es := Keyed(locs, field);
    forall i | 0 <= i < |es|
      ensures es[i].amount >= 0.0
    {
      KeyedAmountsNonNegative(locs, field, i);
    }
    GroupHoldsTotals(es, k);
    AmountForNonNegative(es, k);
  }

  lemma {:induction false} AmountForNonNegative(es: seq<Entry>, k: string)
    requires forall i :: 0 <= i < |es| ==> es[i].amount >= 0.0
    ensures AmountFor(es, k) >= 0.0
  {
    if es != [] {
      AmountForNonNegative(es[..|es| - 1], k);
    }
  }

  /** The sum of the counts of the groups listed in `ks`. */
  function SumCounts(ks: seq<string>, stats: map<string, Stat>): nat
    requires forall k :: k in ks ==> k in stats
  {
    if ks == [] then 0 else SumCounts(ks[..|ks| - 1], stats) + stats[ks[|ks| - 1]].count
  }

  lemma {:induction false} SumCountsUnaffected(ks: seq<string>, stats: map<string, Stat>, k: string, s: Stat)
    requires forall x :: x in ks ==> x in stats
    requires k !in ks
    ensures SumCounts(ks, stats[k := s]) == SumCounts(ks, stats)
  {
    if ks != [] {
      SumCountsUnaffected(ks[..|ks| - 1], stats, k, s);
    }
  }

  lemma {:induction false} SumCountsIncrement(ks: seq<string>, stats: map<string, Stat>, k: string, s: Stat)
    requires forall x :: x in ks ==> x in stats
    requires Distinct(ks) && k in ks && s.count == stats[k].count + 1
    ensures SumCounts(ks, stats[k := s]) == SumCounts(ks, stats) + 1
  {
    var last := ks[|ks| - 1];
    var prefix := ks[..|ks| - 1];
    if last == k {
      assert k !in prefix;
      SumCountsUnaffected(prefix, stats, k, s);
    } else {
      assert k in prefix;
      SumCountsIncrement(prefix, stats, k, s);
    }
  }

  lemma SumCountsNewGroup(ks: seq<string>, stats: map<string, Stat>, k: string, s: Stat)
    requires forall x :: x in ks ==> x in stats
    requires k !in ks
    ensures SumCounts(ks + [k], stats[k := s]) == SumCounts(ks, stats) + s.count
  {
    SumCountsUnaffected(ks, stats, k, s);
    assert (ks + [k])[..|ks|] == ks;
  }

  /** Adding an entry to a grouping whose order lists each group once adds one to the total count. */
  lemma AddEntryCounts(g: Grouping, e: Entry)
    requires Distinct(g.order) && forall k :: k in g.order <==> k in g.stats
    ensures forall k :: k in AddEntry(g, e).order ==> k in AddEntry(g, e).stats
    ensures SumCounts(AddEntry(g, e).order, AddEntry(g, e).stats) == SumCounts(g.order, g.stats) + 1
  {
    if e.key in g.stats {
      SumCountsIncrement(g.order, g.stats, e.key, Stat(g.stats[e.key].amount + e.amount, g.stats[e.key].count + 1));
    } else {
      SumCountsNewGroup(g.order, g.stats, e.key, Stat(e.amount, 1));
    }
  }

  /** Before truncation, the counts of all groups add up to the number of locations that have a key. */
  lemma {:induction false} CountsAddUp(es: seq<Entry>)
    ensures forall k :: k in Group(es).order ==> k in Group(es).stats
    ensures SumCounts(Group(es).order, Group(es).stats) == |es|
  {
    OrderListsEachGroupOnce(es);
    if es != [] {
      var prefix := es[..|es| - 1];
      CountsAddUp(prefix);
      OrderListsEachGroupOnce(prefix);
      AddEntryCounts(Group(prefix), es[|es| - 1]);
    }
  }

  lemma KeyedSnoc(locs: seq<Location>, field: Field, i: nat)
    requires i < |locs|
    ensures var k := KeyOf(locs[i], field);
      Keyed(locs[..i + 1], field) == Keyed(locs[..i], field) + (if k.Some? then [Entry(k.value, AbsAmount(locs[i]))] else [])
  {
    assert locs[..i + 1][..i] == locs[..i];
  }

  lemma GroupSnoc(es: seq<Entry>, e: Entry)
    ensures Group(es + [e]) == AddEntry(Group(es), e)
  {
    assert (es + [e])[..|es|] == es;
  }

  /** The reduce callback: opens `{ amount: 0, count: 0 }` for a new key, then adds the amount and one to the count. */
  method Accumulate(order: seq<string>, acc: map<string, Stat>, key: string, amount: real)
    returns (order': seq<string>, acc': map<string, Stat>)
    ensures Grouping(order', acc') == AddEntry(Grouping(order, acc), Entry(key, amount))
  {
    order', acc' := order, acc;
    if key !in acc' {
      order' := order' + [key];
      acc' := acc'[key := Stat(0.0, 0)];
    }
    acc' := acc'[key := Stat(acc'[key].amount + amount, acc'[key].count + 1)];
    if key !in acc {
      assert acc' == acc[key := Stat(amount, 1)];
    }
  }

  /** The reduce of the source: one pass over the locations, updating the accumulator in place. */
  method GroupLocations(locs: seq<Location>, field: Field) returns (g: Grouping)
    ensures g == Group(Keyed(locs, field))
  {
    var order: seq<string> := [];
    var acc: map<string, Stat> := map[];
    for i := 0 to |locs|
      invariant Grouping(order, acc) == Group(Keyed(locs[..i], field))
    {
      var loc := locs[i];
      var key := KeyOf(loc, field);
      ghost var es := Keyed(locs[..i], field);
      KeyedSnoc(locs, field, i);
      if key.Some? {
        GroupSnoc(es, Entry(key.value, AbsAmount(loc)));
        order, acc := Accumulate(order, acc, key.value, AbsAmount(loc));
      } else {
        assert es + [] == es;
      }
    }
    assert locs[..|locs|] == locs;
    g := Grouping(order, acc);
  }

  // ---------------------------------------------------------------- ranking

  /** `Object.entries(acc).map(...)`: one entry per group, in the order the keys were first seen. */
  function Entries(ks: seq<string>, stats: map<string, Stat>): (r: seq<StatEntry>)
    requires forall k :: k in ks ==> k in stats
    ensures |r| == |ks|
  {
    if ks == [] then []
    else
      var k := ks[|ks| - 1];
      Entries(ks[..|ks| - 1], stats) + [StatEntry(k, stats[k].amount, stats[k].count)]
  }

  lemma {:induction false} EntriesAt(ks: seq<string>, stats: map<string, Stat>, i: nat)
    requires forall k :: k in ks ==> k in stats
    requires i < |ks|
    ensures Entries(ks, stats)[i] == StatEntry(ks[i], stats[ks[i]].amount, stats[ks[i]].count)
  {
    if i < |ks| - 1 {
      EntriesAt(ks[..|ks| - 1], stats, i);
    }
  }

  predicate NonIncreasing(s: seq<StatEntry>)
  {
    forall i, j :: 0 <= i < j < |s| ==> s[i].amount >= s[j].amount
  }

  /** Places `x` before the first entry whose amount is not larger, so entries that tie keep their order. */
  function InsertDesc(x: StatEntry, s: seq<StatEntry>): (r: seq<StatEntry>)
    requires NonIncreasing(s)
    ensures NonIncreasing(r)
    ensures multiset(r) == multiset(s) + multiset{x}
    ensures |r| == |s| + 1
  {
    if s == [] then [x]
    else if s[0].amount <= x.amount then [x] + s
    else
      var rest := InsertDesc(x, s[1..]);
      assert s == [s[0]] + s[1..];
      AllAtMost(rest, s[1..], x, s[0].amount);
      [s[0]] + rest
  }

  /** A permutation of `s` and `x` has no amount above a bound that `x` and all of `s` respect. */
  lemma AllAtMost(r: seq<StatEntry>, s: seq<StatEntry>, x: StatEntry, bound: real)
    requires multiset(r) == multiset(s) + multiset{x}
    requires x.amount <= bound && forall k :: 0 <= k < |s| ==> s[k].amount <= bound
    ensures forall k :: 0 <= k < |r| ==> r[k].amount <= bound
  {
    forall k | 0 <= k < |r|
      ensures r[k].amount <= bound
    {
      assert r[k] in multiset(r);
      assert r[k] in multiset(s) + multiset{x};
      if r[k] != x {
        assert r[k] in s;
      }
    }
  }

  /** `sort((a, b) => b.amount - a.amount)`: a stable sort by amount, largest first. */
  function SortDesc(s: seq<StatEntry>): (r: seq<StatEntry>)
    ensures NonIncreasing(r)
    ensures multiset(r) == multiset(s)
    ensures |r| == |s|
  {
    if s == [] then []
    else
      assert s == [s[0]] + s[1..];
      InsertDesc(s[0], SortDesc(s[1..]))
  }

  /** The five groups with the largest amounts, largest first. */
  function Top(g: Grouping): (r: seq<StatEntry>)
    requires forall k :: k in g.order ==> k in g.stats
    ensures |r| <= TopCount
    ensures NonIncreasing(r)
  {
    var ranked := SortDesc(Entries(g.order, g.stats));
    ranked[..Min(TopCount, |ranked|)]
  }

  /** Every entry of a grouping is one of its groups with that group's totals. */
  lemma EntriesAreGroups(g: Grouping)
    requires forall k :: k in g.order ==> k in g.stats
    ensures forall e :: e in Entries(g.order, g.stats) ==> e.key in g.stats && g.stats[e.key] == Stat(e.amount, e.count)
  {
    var entries := Entries(g.order, g.stats);
    forall e | e in entries
      ensures e.key in g.stats && g.stats[e.key] == Stat(e.amount, e.count)
    {
      var i :| 0 <= i < |entries| && entries[i] == e;
      EntriesAt(g.order, g.stats, i);
    }
  }

  /** Every reported group is a real group with its own totals. */
  lemma TopAreGroups(es: seq<Entry>)
    ensures forall k :: k in Group(es).order ==> k in Group(es).stats
    ensures var g := Group(es);
      forall t :: t in Top(g) ==> t.key in g.stats && g.stats[t.key] == Stat(t.amount, t.count)
  {
    OrderListsEachGroupOnce(es);
    var g := Group(es);
    var ranked := SortDesc(Entries(g.order, g.stats));
    EntriesAreGroups(g);
    forall t | t in Top(g)
      ensures t.key in g.stats && g.stats[t.key] == Stat(t.amount, t.count)
    {
      assert t in ranked;
      assert t in multiset(ranked);
    }
  }

  /** No group is reported twice, and as many groups are reported as there are, up to five. */
  lemma TopKeysDistinct(es: seq<Entry>)
    ensures forall k :: k in Group(es).order ==> k in Group(es).stats
    ensures var g := Group(es); var top := Top(g);
      && (forall i, j :: 0 <= i < j < |top| ==> top[i].key != top[j].key)
      && |top| == Min(TopCount, |g.stats|)
  {
    OrderListsEachGroupOnce(es);
    var g := Group(es);
    var ranked := SortDesc(Entries(g.order, g.stats));
    var top := Top(g);
    assert top == ranked[..|top|];
    EntriesAreGroups(g);
    forall i, j | 0 <= i < j < |top|
      ensures top[i].key != top[j].key
    {
      if top[i].key == top[j].key {
        assert top[i] in multiset(ranked) && top[j] in multiset(ranked);
        assert top[i] == top[j];
        DistinctKeysNoDuplicateEntries(g.order, g.stats, ranked, i, j);
      }
    }
    DistinctSize(g.order, g.stats);
  }

  /** In a ranking that never increases, an entry past a prefix is no larger than any entry of the prefix. */
  lemma PastPrefixNoLarger(ranked: seq<StatEntry>, m: nat, e: StatEntry, t: StatEntry)
    requires NonIncreasing(ranked) && m <= |ranked|
    requires e in ranked && e !in ranked[..m] && t in ranked[..m]
    ensures e.amount <= t.amount
  {
    var q :| 0 <= q < |ranked| && ranked[q] == e;
    var i :| 0 <= i < m && ranked[..m][i] == t;
    assert forall r :: 0 <= r < m ==> ranked[..m][r] == ranked[r];
  }

  /** A group whose key is not reported has no larger amount than a reported entry `t`. */
  lemma OmittedGroupNoLarger(es: seq<Entry>, k: string, t: StatEntry)
    requires forall k :: k in Group(es).order ==> k in Group(es).stats
    requires k in Group(es).stats && t in Top(Group(es))
    requires forall u :: u in Top(Group(es)) ==> u.key != k
    ensures Group(es).stats[k].amount <= t.amount
  {
    OrderListsEachGroupOnce(es);
    var g := Group(es);
    var entries := Entries(g.order, g.stats);
    var ranked := SortDesc(entries);
    var top := Top(g);
    var m := Min(TopCount, |ranked|);
    assert top == ranked[..m];
    var p :| 0 <= p < |g.order| && g.order[p] == k;
    EntriesAt(g.order, g.stats, p);
    var e := entries[p];
    assert e in multiset(ranked) by { assert e in multiset(entries); }
    assert e.key == k;
    PastPrefixNoLarger(ranked, m, e, t);
  }

  /** No group left out of the report has a larger amount than any reported one. */
  lemma OmittedAreNoLarger(es: seq<Entry>)
    ensures forall k :: k in Group(es).order ==> k in Group(es).stats
    ensures var g := Group(es); var top := Top(g);
      forall k, t :: k in g.stats && t in top && (forall u :: u in top ==> u.key != k) ==> g.stats[k].amount <= t.amount
  {
    OrderListsEachGroupOnce(es);
    var g := Group(es);
    forall k, t | k in g.stats && t in Top(g) && (forall u :: u in Top(g) ==> u.key != k)
      ensures g.stats[k].amount <= t.amount
    {
      OmittedGroupNoLarger(es, k, t);
    }
  }

  /** In the sort of the entries of distinct keys, two different positions hold different entries. */
  lemma DistinctKeysNoDuplicateEntries(ks: seq<string>, stats: map<string, Stat>, ranked: seq<StatEntry>, i: nat, j: nat)
    requires forall k :: k in ks ==> k in stats
    requires Distinct(ks) && multiset(ranked) == multiset(Entries(ks, stats))
    requires i < j < |ranked|
    ensures ranked[i] != ranked[j]
  {
    var entries := Entries(ks, stats);
    forall p, q | 0 <= p < q < |entries|
      ensures entries[p].key != entries[q].key
    {
      EntriesAt(ks, stats, p);
      EntriesAt(ks, stats, q);
    }
    if ranked[i] == ranked[j] {
      RepeatedTwice(ranked, i, j);
      AtMostOnce(entries, ranked[i]);
    }
  }

  lemma RepeatedTwice(s: seq<StatEntry>, i: nat, j: nat)
    requires i < j < |s| && s[i] == s[j]
    ensures multiset(s)[s[i]] >= 2
  {
    assert s == s[..j] + [s[j]] + s[j + 1..];
    assert s[i] in multiset(s[..j]) by { assert s[..j][i] == s[i]; }
  }

  /** In a sequence of entries with distinct keys, every entry occurs at most once. */
  lemma {:induction false} AtMostOnce(s: seq<StatEntry>, x: StatEntry)
    requires forall p, q :: 0 <= p < q < |s| ==> s[p].key != s[q].key
    ensures multiset(s)[x] <= 1
  {
    if s != [] {
      var prefix := s[..|s| - 1];
      assert s == prefix + [s[|s| - 1]];
      AtMostOnce(prefix, x);
      if s[|s| - 1] == x {
        assert x !in prefix;
      }
    }
  }

  /** A map whose keys are listed once each in `ks` has as many keys as `ks` has entries. */
  lemma DistinctSize(ks: seq<string>, stats: map<string, Stat>)
    requires Distinct(ks) && forall k :: k in ks <==> k in stats
    ensures |stats| == |ks|
  {
    assert stats.Keys == set k | k in ks;
    DistinctCard(ks);
  }

  lemma {:induction false} DistinctCard(ks: seq<string>)
    requires Distinct(ks)
    ensures |set k | k in ks| == |ks|
  {
    if ks != [] {
      var prefix := ks[..|ks| - 1];
      DistinctCard(prefix);
      assert (set k | k in ks) == (set k | k in prefix) + {ks[|ks| - 1]};
    }
  }

  // ---------------------------------------------------------------- the statistics

  /** The district and category rankings of the spending map. */
  method SpendingStats(locs: seq<Location>) returns (topDistricts: seq<StatEntry>, topCategories: seq<StatEntry>)
    ensures var g := Group(Keyed(locs, District));
      (forall k :: k in g.order ==> k in g.stats) && topDistricts == Top(g)
    ensures var g := Group(Keyed(locs, Category));
      (forall k :: k in g.order ==> k in g.stats) && topCategories == Top(g)
  {
    var districtStats := GroupLocations(locs, District);
    OrderListsEachGroupOnce(Keyed(locs, District));
    topDistricts := Top(districtStats);
    var categoryStats := GroupLocations(locs, Category);
    OrderListsEachGroupOnce(Keyed(locs, Category));
    topCategories := Top(categoryStats);
  }
}
